=== FILE: README.md ===
# Caption scrubber, modelled in Dafny

`clean_captions_exact.py` is a one-shot command. It reads a CSV file and deletes, from a
caption column, every sentence that holds a whole-word, case-insensitive occurrence of a
target term. By default it also flattens line breaks in every cell, so each record is
written on one line. This project models, as pure Dafny functions, the core of that script:

- `flatten_newlines`: the three line-break replacements, the whitespace collapse and the
  strip (module `Flattening`);
- the sentence splitter `SENT_SPLIT_REGEX.split` (module `Sentences`);
- the whole-word matcher `WORD_REGEX.search` (module `WordMatch`);
- `clean_caption` (module `Scrub`);
- the table steps of `main` (module `CsvTable`):
  - the missing-column error with exit status 2;
  - the optional `<column>_orig` backup;
  - the scrub of the target column;
  - the optional drop of rows left empty;
  - the default flattening of every cell.

Shared pieces: `Optional` (`Option`, `Result`), `Text` (character classes, ASCII
lower-casing, `" ".join`), and `Seqs` (order-preserving filter, count, map).

How the model is built:

- **Flattening.** It is defined twice. `Flatten` is the literal sequence of steps. It is
  proved equal to the words of the text joined by single spaces, Python's
  `" ".join(s.split())`, and that reference is what the lemmas build on.
- **Splitting.** The splitter is proved to round-trip: on flat text, joining its pieces
  with single spaces gives the text back. Splitting a joined run of sentences gives the
  sentences back.
- **Terms.** The matcher's term list is a parameter. `WordMatch.ActiveTerms` is the
  placeholder alternation the script ships with, line 22. `WordMatch.IntendedTerms` is the
  commented-out `lighting|illumination|light`, line 21, which the script's documentation
  describes. With the shipped pattern, a non-blank caption that does not contain the digit 6
  only comes back flattened (`Scrub.ShippedPatternOnlyFlattens`); a blank one comes back
  unchanged.
- **Tables.** A table is a list of column names and a list of rows. Each row maps column
  names to cells, and a cell is `Option<string>`. The table functions run column by
  column, as the script does. `CsvTable.PipelineRowByRow` proves this equal to a
  row-at-a-time definition (`ProcessRow`) built from the same per-row steps, so it shows
  that the drop of empty rows and the per-row steps can be reordered. What a written row
  actually holds is stated by `CsvTable.RowCaption`, `CsvTable.RowBackup`,
  `CsvTable.RowOtherCells` and `CsvTable.RowDroppedIff`.

Three behaviours of the script to note:

- The target column is not always flattened. `clean_caption` passes a blank cell through
  unchanged, so without flatten-all a blank caption such as `" \n "` keeps its line
  break. Under flatten-all it becomes `""` (`CsvTable.RowCaption`).
- The backup column is not flattened by the scrub. It is flattened only by the
  flatten-all step (`CsvTable.RowBackup`).
- A new backup column goes at the end of the column list. An existing one is overwritten
  where it stands (`CsvTable.Backup`).

## Model

| member | source | states |
|---|---|---|
| `Flattening.ReplaceAll` | clean_captions_exact.py:30 | `str.replace`, left to right without overlaps; its own contract says only that a replacement at least as long as the target does not shorten the text and that text shorter than the target is unchanged; its meaning on line 30 is `Flattening.ChainedReplaceIsScan` |
| `Flattening.Strip` | clean_captions_exact.py:31 | `str.strip`: the result neither starts nor ends with whitespace; that it drops only outer whitespace is `Flattening.StripDropsOuterWs` |
| `Flattening.StripDropsOuterWs` | clean_captions_exact.py:31 | the stripped text is a middle slice of the input with only whitespace before and after it; with `Strip`'s own contract this determines the result |
| `Flattening.Collapse` | clean_captions_exact.py:31 | `re.sub(r"\s+", " ", …)`: empty exactly when the input is, and starts with whitespace exactly when the input does; that only single spaces remain is `Flattening.CollapseCollapsed` |
| `Flattening.ChainedReplaceIsScan` | clean_captions_exact.py:30 | the three `str.replace` calls, in the source's order, equal one left-to-right scan that turns `\r\n`, `\n` and `\r` each into one space |
| `Flattening.ReplaceNewlines` | clean_captions_exact.py:30 | no carriage return or line feed is left; the text does not grow; empty exactly when the input is |
| `Flattening.Flatten` | clean_captions_exact.py:27-33 | the result is flat (single inner spaces, no line breaks, no outer whitespace) and equals the input's whitespace-separated words joined by single spaces |
| `Flattening.StripCollapseIsJoinOfWords` | clean_captions_exact.py:30-31 | replace, collapse and strip, in the source's order, give exactly the words joined by single spaces |
| `Flattening.CollapseReplace` | clean_captions_exact.py:30-31 | collapsing whitespace makes the earlier line-break replacements redundant |
| `Flattening.CollapseCollapsed` | clean_captions_exact.py:31 | after the substitution no whitespace other than a single space remains, and no two whitespace characters are adjacent |
| `Flattening.FlattenFixpoint` | clean_captions_exact.py:27-33 | flat text is left unchanged |
| `Flattening.FlattenIdempotent` | clean_captions_exact.py:27-33 | flattening twice equals flattening once |
| `Flattening.FlattenKeepsWords` | clean_captions_exact.py:27-33 | flattening keeps the sequence of words |
| `Flattening.FlattenEmptyIffBlank` | clean_captions_exact.py:27-33 | the result is empty exactly when the input is empty or whitespace only |
| `Flattening.FlattenAvoids` | clean_captions_exact.py:30-31 | no character other than a space is introduced |
| `Flattening.LineBreakBecomesSpace` | clean_captions_exact.py:30-31 | two flat lines joined by `\n`, `\r\n` or `\r` flatten to the lines joined by one space |
| `Flattening.WordsOfJoin` | clean_captions_exact.py:31 | splitting words joined by single spaces gives the words back |
| `Flattening.FlatIsJoinOfWords` | clean_captions_exact.py:31 | a flat text is its own words joined by single spaces |
| `Sentences.FindCut` | clean_captions_exact.py:25 | the first position at or after the start where whitespace follows `.`, `!` or `?`, with none before it |
| `Sentences.Split` | clean_captions_exact.py:25 | `SENT_SPLIT_REGEX.split`; its own contract says only that there is at least one piece; what the pieces are is stated by `Sentences.SplitPieces`, `Sentences.SplitJoin` and `Sentences.JoinSplit` |
| `Sentences.SplitPieces` | clean_captions_exact.py:25 | no piece holds a split point; every piece but the last is non-empty and ends in `.`, `!` or `?` |
| `Sentences.SplitCons` | clean_captions_exact.py:25 | a sentence ending in punctuation, one space, then text starting with a non-space is cut exactly after the sentence |
| `Sentences.SplitWholeIffNoCut` | clean_captions_exact.py:25 | the text comes back as one piece exactly when no whitespace follows sentence punctuation |
| `Sentences.SplitJoin` | clean_captions_exact.py:25 | on flat text, the pieces joined by single spaces give the text back |
| `Sentences.SplitSentences` | clean_captions_exact.py:39-40 | the pieces of non-empty flat text are non-empty flat sentences, all but the last ending in punctuation |
| `Sentences.JoinSplit` | clean_captions_exact.py:25 | splitting sentences joined by single spaces gives them back |
| `Sentences.SplitAvoids` | clean_captions_exact.py:25 | every piece is made of characters of the text |
| `WordMatch.MatchAt` | clean_captions_exact.py:21-22 | defines a match of one alternative at one position: the term up to ASCII case, with no character of `[A-Za-z0-9_-]` (or the four letters `(?i)` folds into it) directly before or after; a definition without a contract of its own, tied to the code by `WordMatch.TryAt` |
| `WordMatch.ContainsWord` | clean_captions_exact.py:41 | defines the truth value of `WORD_REGEX.search` that the list comprehension tests: some alternative matches at some position; a definition without a contract of its own, tied to the search by `WordMatch.Search` |
| `WordMatch.TryAt` | clean_captions_exact.py:22 | true exactly when the term occurs at the position, ignoring case, with no character of `[A-Za-z0-9_-]` (or one of the four letters `(?i)` folds into it) on either side |
| `WordMatch.Search` | clean_captions_exact.py:22 | finds nothing exactly when no term matches anywhere; otherwise returns the leftmost match position and, there, the first matching alternative |
| `WordMatch.StandaloneMatches` | clean_captions_exact.py:19-22 | a term in any letter case, with nothing word-like on either side, is found |
| `WordMatch.EmbeddedDoesNotMatch` | clean_captions_exact.py:19-20 | an occurrence glued to a character of `[A-Za-z0-9_-]` (or one of the four letters `(?i)` folds into it) is not a match |
| `WordMatch.KelvinSignBlocksMatch` | clean_captions_exact.py:21-22 | under `(?i)` the word-character class also holds the Kelvin sign, so `light` glued to it is no match, while `light` after a space is |
| `WordMatch.ContainsWordIgnoresCase` | clean_captions_exact.py:22 | lower-casing the text does not change whether the search succeeds |
| `WordMatch.NoCandidateNoMatch` | clean_captions_exact.py:19-22 | no match can exist where no term's first letter stands free of word characters |
| `WordMatch.HighlightDoesNotMatch` | clean_captions_exact.py:20-21 | `highlight` does not match the intended terms |
| `WordMatch.LightsDoesNotMatch` | clean_captions_exact.py:20-21 | `lights` does not match the intended terms |
| `WordMatch.HyphenatedDoesNotMatch` | clean_captions_exact.py:20-21 | `back-lighting` does not match the intended terms |
| `WordMatch.CapitalisedTermMatches` | clean_captions_exact.py:21 | `Soft LIGHT.` matches the intended terms |
| `WordMatch.ActiveNeedsDigit` | clean_captions_exact.py:22 | under the shipped placeholder pattern, text without the digit 6 never matches |
| `Seqs.Filter` | clean_captions_exact.py:41 | the kept elements are exactly those passing the test, in their original order |
| `Seqs.CountComplement` | clean_captions_exact.py:93-95 | kept and removed elements together account for every element |
| `Scrub.CleanCaption` | clean_captions_exact.py:35-44 | a missing value or a blank string passes through unchanged; otherwise the result is flat and equals the sentences with no match joined by single spaces |
| `Scrub.FilterSentenceSeq` | clean_captions_exact.py:41 | dropping sentences leaves well-formed sentences |
| `Scrub.CleanedSentences` | clean_captions_exact.py:40-44 | the sentences of a non-empty result are exactly the kept sentences, and none of them contains a term |
| `Scrub.CleanKeepsUnmatched` | clean_captions_exact.py:39-44 | a non-blank caption with no matching sentence comes back only flattened |
| `Scrub.CleanDropsAllMatched` | clean_captions_exact.py:41-44 | a non-blank caption whose every sentence matches becomes the empty string |
| `Scrub.CleanBlankIff` | clean_captions_exact.py:41-44 | a non-blank caption is emptied exactly when every sentence is dropped |
| `Scrub.FlattenAfterClean` | clean_captions_exact.py:42-43 | a cleaned non-blank caption is unchanged by flattening |
| `Scrub.CleanIdempotent` | clean_captions_exact.py:35-44 | cleaning twice equals cleaning once |
| `Scrub.CleanOnSentences` | clean_captions_exact.py:40-43 | on a run of sentences joined by single spaces, cleaning keeps exactly the sentences with no match |
| `Scrub.DropsMatchingSentence` | clean_captions_exact.py:40-43 | a matching sentence followed by a clean one leaves the clean one alone |
| `Scrub.ShippedPatternOnlyFlattens` | clean_captions_exact.py:22 | with the shipped pattern, a non-blank caption without the digit 6 is only flattened |
| `CsvTable.BackupName` | clean_captions_exact.py:83 | the backup name differs from the column's and starts with it |
| `CsvTable.FlattenCell` | clean_captions_exact.py:27-33 | a missing value stays missing; a string becomes flat and keeps its words |
| `CsvTable.Backup` | clean_captions_exact.py:81-86 | the backup cell of every row is the target cell; every other cell is unchanged; the backup column is appended only when absent; the table stays well formed |
| `CsvTable.ScrubColumn` | clean_captions_exact.py:89 | the target cell of every row is cleaned; every other cell and the column list are unchanged |
| `CsvTable.DropEmpty` | clean_captions_exact.py:91-95 | the kept rows are, in order, those whose target cell is present and not blank; the reported count is the number of removed rows |
| `CsvTable.FlattenAll` | clean_captions_exact.py:97-101 | every cell of every row is flattened; columns, rows and keys are unchanged |
| `CsvTable.Pipeline` | clean_captions_exact.py:77-101 | an error exactly when the column is missing, carrying the column list and exit status 2; otherwise, from a well-formed input, a well-formed table; removed plus written rows equal the input rows, and the backup column is the only addition |
| `CsvTable.PipelineRowByRow` | clean_captions_exact.py:81-101 | the column-by-column steps equal processing each row on its own and keeping the survivors in order |
| `CsvTable.RowDroppedIff` | clean_captions_exact.py:89-95 | a row is removed exactly when drop-empty is on and its caption is missing, blank, or loses every sentence |
| `CsvTable.RowCaption` | clean_captions_exact.py:89-101 | a written caption is the cleaned one, except that under flatten-all a blank caption becomes empty |
| `CsvTable.RowBackup` | clean_captions_exact.py:81-101 | a written backup cell is the original caption, flattened under flatten-all |
| `CsvTable.RowOtherCells` | clean_captions_exact.py:97-101 | every other cell is the original, flattened under flatten-all |
| `CsvTable.RowKeys` | clean_captions_exact.py:81-86 | a written row gains only the backup column |
| `CsvTable.OneRecordPerLine` | clean_captions_exact.py:97-101 | under flatten-all no written cell holds a line break or any whitespace other than single inner spaces |
| `CsvTable.DefaultRun` | clean_captions_exact.py:52-101 | with the default switches every row is written, in order, with its caption cleaned and every other cell flattened |

## Left out

- CSV reading and writing are not modelled: the delimiter, encoding, quoting and line terminator, and the read failure with exit status 1. The model starts from an in-memory table and ends with one.
- The write failures are not modelled. Exit status 3 is reached only when the first `to_csv` call fails with an error other than `TypeError`. A `TypeError` there, which pandas 2.0 and later raise for the `line_terminator` keyword, leads to the second call, which is outside any `try`, so a failure of it ends the process with an uncaught exception and exit status 1.
- Argument parsing is not modelled. The switches become the `Options` record, and `DefaultOptions` holds the defaults.
- The diagnostic messages on the error stream are not modelled: the note about overwriting a backup, the removed-row count and the success line. The removed count is returned in `Outcome` instead of being printed.
- Whitespace is limited to the six ASCII characters space, tab, line feed, carriage return, form feed and vertical tab. Python's `\s`, `str.split` and `str.strip` also treat the ASCII separators `\x1c` to `\x1f` and the Unicode spaces as whitespace; the model's flattening, splitting and blank test do not.
- Case folding of the terms is limited to ASCII letters. Under the `(?i)` flag a term letter also matches other Unicode letters that fold to it, for example the Kelvin sign for `k`.
- pandas missing values are modelled as `None` cells. The script reads with `keep_default_na=False`, so no text is turned into a missing value, but the absent fields of a row shorter than the header still are.
- Non-string cells of other types are not modelled: every column is read as text.
- CsvTable.DropEmpty: when no target cell holds a string (for example every row is shorter than the header), pandas turns the cleaned all-missing column into a float column and `.str.strip()` raises `AttributeError`, so the script stops with an uncaught exception. The model instead returns `Ok` with every row removed; `CsvTable.Pipeline` and `CsvTable.RowDroppedIff` say so.
- Sentences.Split: its own contract states only that there is at least one piece. The shape of the pieces and both round trips are the lemmas `Sentences.SplitPieces`, `Sentences.SplitJoin` and `Sentences.JoinSplit`, kept apart from the recursive definition.
- Flattening.ReplaceAll: its own contract states only length facts. What the three chained calls of line 30 compute is the lemma `Flattening.ChainedReplaceIsScan`.
- Flattening.Collapse: its own contract states only the emptiness and the first character. That every run becomes one space is the lemmas `Flattening.CollapseCollapsed` and `Flattening.StripCollapseIsJoinOfWords`.

=== FILE: flattening.dfy ===
/** `flatten_newlines`: line breaks become spaces, every whitespace run collapses to one
    space, and the result is stripped. */
module Flattening {
  import opened Text

  /** A string whose whitespace is all single spaces, never two in a row. */
  predicate Collapsed(s: string) {
    && (forall i :: 0 <= i < |s| && IsWs(s[i]) ==> s[i] == ' ')
    && (forall i, j :: 0 <= i && j == i + 1 < |s| ==> !(IsWs(s[i]) && IsWs(s[j])))
  }

  /** The shape of every flattened string: collapsed, and with no leading or trailing
      whitespace. In particular it holds no line break. */
  predicate Flat(s: string) {
    Collapsed(s) && (|s| > 0 ==> !IsWs(s[0]) && !IsWs(s[|s| - 1]))
  }

  /** A non-empty run of non-whitespace characters. */
  predicate IsWord(w: string) {
    |w| > 0 && forall i :: 0 <= i < |w| ==> !IsWs(w[i])
  }

  /** `str.replace(target, replacement)`: every occurrence of `target`, taken left to right
      without overlaps, becomes `replacement`. */
  function ReplaceAll(s: string, target: string, replacement: string): (r: string)
    requires |target| > 0
    ensures |target| <= |replacement| ==> |r| >= |s|
    ensures |s| < |target| ==> r == s
    decreases |s|
  {
    if |s| < |target| then s
    else if s[..|target|] == target then replacement + ReplaceAll(s[|target|..], target, replacement)
    else [s[0]] + ReplaceAll(s[1..], target, replacement)
  }

  /** The three chained replacements `"\r\n" -> " "`, `"\n" -> " "`, `"\r" -> " "`.
      Done in that order they amount to one left-to-right scan in which a carriage
      return directly followed by a line feed becomes a single space. */
  function ReplaceNewlines(s: string): (r: string)
    ensures |r| <= |s|
    ensures |r| == 0 <==> |s| == 0
    ensures |s| > 0 ==> (IsWs(r[0]) <==> IsWs(s[0]))
    ensures forall i :: 0 <= i < |r| ==> r[i] != '\r' && r[i] != '\n'
    decreases |s|
  {
    if |s| == 0 then ""
    else if |s| >= 2 && s[0] == '\r' && s[1] == '\n' then " " + ReplaceNewlines(s[2..])
    else if s[0] == '\r' || s[0] == '\n' then " " + ReplaceNewlines(s[1..])
    else [s[0]] + ReplaceNewlines(s[1..])
  }

  /** The length of the leading whitespace run of `s`. */
  function LeadingWs(s: string): (k: nat)
    ensures k <= |s|
    ensures forall i :: 0 <= i < k ==> IsWs(s[i])
    ensures k == |s| || !IsWs(s[k])
  {
    if |s| > 0 && IsWs(s[0]) then 1 + LeadingWs(s[1..]) else 0
  }

  /** The length of `s` once its trailing whitespace run is removed. */
  function ContentEnd(s: string): (k: nat)
    ensures k <= |s|
    ensures forall i :: k <= i < |s| ==> IsWs(s[i])
    ensures k == 0 || !IsWs(s[k - 1])
  {
    if |s| > 0 && IsWs(s[|s| - 1]) then ContentEnd(s[..|s| - 1]) else |s|
  }

  /** `str.lstrip()`: drops the leading whitespace. */
  function TrimStart(s: string): (r: string)
    ensures |r| <= |s|
    ensures |s| > 0 && IsWs(s[0]) ==> |r| < |s|
    ensures |r| > 0 ==> !IsWs(r[0])
  {
    s[LeadingWs(s)..]
  }

  /** `str.rstrip()`: drops the trailing whitespace. */
  function TrimEnd(s: string): (r: string)
    ensures |r| > 0 ==> !IsWs(r[|r| - 1])
  {
    s[..ContentEnd(s)]
  }

  /** `str.strip()`. */
  function Strip(s: string): (r: string)
    ensures |r| > 0 ==> !IsWs(r[0]) && !IsWs(r[|r| - 1])
  {
    TrimEnd(TrimStart(s))
  }

  /** `str.strip()` drops outer whitespace only: the result is a middle slice of the text
      with nothing but whitespace on either side of it. Together with `Strip`'s own
      contract (no whitespace at either end) this fixes the result. */
  lemma StripDropsOuterWs(s: string)
    ensures exists i, j :: 0 <= i <= j <= |s| && Strip(s) == s[i..j] && IsBlank(s[..i]) && IsBlank(s[j..])
  {
    var i := LeadingWs(s);
    var t := s[i..];
    var j := i + ContentEnd(t);
    assert Strip(s) == s[i..j];
    assert IsBlank(s[..i]);
    assert forall k :: j <= k < |s| ==> s[k] == t[k - i];
    assert IsBlank(s[j..]);
  }

  /** `re.sub(r"\s+", " ", s)`: every maximal whitespace run becomes one space. */
  function Collapse(s: string): (r: string)
    ensures |r| == 0 <==> |s| == 0
    ensures |s| > 0 ==> (IsWs(r[0]) <==> IsWs(s[0]))
    decreases |s|
  {
    if |s| == 0 then ""
    else if IsWs(s[0]) then " " + Collapse(TrimStart(s))
    else [s[0]] + Collapse(s[1..])
  }

  /** The length of the longest prefix of `s` holding no whitespace. */
  function WordLength(s: string): (k: nat)
    ensures k <= |s|
    ensures forall i :: 0 <= i < k ==> !IsWs(s[i])
    ensures k == |s| || IsWs(s[k])
  {
    if |s| > 0 && !IsWs(s[0]) then 1 + WordLength(s[1..]) else 0
  }

  /** The longest prefix of `s` holding no whitespace. */
  function TakeWord(s: string): (w: string)
    ensures forall i :: 0 <= i < |w| ==> !IsWs(w[i])
    ensures |s| > 0 && !IsWs(s[0]) ==> |w| > 0
  {
    s[..WordLength(s)]
  }

  /** `s.split()`: the maximal runs of non-whitespace characters, in order. */
  function Words(s: string): (ws: seq<string>)
    ensures forall i :: 0 <= i < |ws| ==> IsWord(ws[i])
    decreases |s|
  {
    var t := TrimStart(s);
    if |t| == 0 then []
    else
      var w := TakeWord(t);
      assert IsWord(w);
      [w] + Words(t[|w|..])
  }

  /** `flatten_newlines` on a string. */
  function Flatten(s: string): (r: string)
    ensures Flat(r)
    ensures forall i :: 0 <= i < |r| ==> r[i] != '\r' && r[i] != '\n'
    ensures r == JoinSpace(Words(s))
  {
    StripCollapseIsJoinOfWords(s);
    WordsAreFlat(Words(s));
    JoinFlat(Words(s));
    Strip(Collapse(ReplaceNewlines(s)))
  }

  // ---------------------------------------------------------------------------
  // Lemmas: one step of each scan

  /** Text that does not start with whitespace is left alone by `lstrip`. */
  lemma NoLeadingWs(s: string)
    requires |s| == 0 || !IsWs(s[0])
    ensures TrimStart(s) == s
  {
  }

  /** A leading whitespace character is dropped and `lstrip` goes on with the rest. */
  lemma TrimStartStep(s: string)
    requires |s| > 0 && IsWs(s[0])
    ensures TrimStart(s) == TrimStart(s[1..])
  {
  }

  /** Text that does not end in whitespace is left alone by `rstrip`. */
  lemma NoTrailingWs(s: string)
    requires |s| == 0 || !IsWs(s[|s| - 1])
    ensures TrimEnd(s) == s
  {
  }

  /** A non-whitespace first character belongs to the first word. */
  lemma TakeWordStep(s: string)
    requires |s| > 0 && !IsWs(s[0])
    ensures TakeWord(s) == [s[0]] + TakeWord(s[1..])
  {
  }

  /** A word followed by whitespace (or by nothing) is what `TakeWord` takes. */
  lemma TakeWordPrefix(w: string, x: string)
    requires forall i :: 0 <= i < |w| ==> !IsWs(w[i])
    requires |x| == 0 || IsWs(x[0])
    ensures TakeWord(w + x) == w
  {
    var s := w + x;
    assert forall i :: 0 <= i < |w| ==> s[i] == w[i];
    assert |w| < |s| ==> s[|w|] == x[0];
    assert WordLength(s) == |w|;
    assert s[..|w|] == w;
  }

  /** Splitting into words ignores the leading whitespace. */
  lemma WordsTrimStart(s: string)
    ensures Words(TrimStart(s)) == Words(s)
  {
    NoLeadingWs(TrimStart(s));
  }

  // ---------------------------------------------------------------------------
  // Lemmas: the literal body of flatten_newlines equals " ".join(s.split())

  /** Stripping leading whitespace commutes with the newline replacement. */
  lemma {:induction false} TrimStartReplace(x: string)
    ensures TrimStart(ReplaceNewlines(x)) == ReplaceNewlines(TrimStart(x))
    decreases |x|
  {
    if |x| == 0 {
    } else if !IsWs(x[0]) {
      NoLeadingWs(x);
      NoLeadingWs(ReplaceNewlines(x));
    } else {
      var crlf := |x| >= 2 && x[0] == '\r' && x[1] == '\n';
      var x1 := if crlf then x[2..] else x[1..];
      var r := ReplaceNewlines(x);
      assert r[1..] == ReplaceNewlines(x1);
      TrimStartStep(r);
      TrimStartReplace(x1);
      TrimStartStep(x);
      if crlf {
        assert x[1..][1..] == x1;
        TrimStartStep(x[1..]);
      }
    }
  }

  /** The newline replacement is invisible once whitespace runs are collapsed. */
  lemma {:induction false} CollapseReplace(x: string)
    ensures Collapse(ReplaceNewlines(x)) == Collapse(x)
    decreases |x|
  {
    if |x| == 0 {
    } else if !IsWs(x[0]) {
      var r := ReplaceNewlines(x);
      assert r[1..] == ReplaceNewlines(x[1..]);
      CollapseReplace(x[1..]);
    } else {
      TrimStartReplace(x);
      CollapseReplace(TrimStart(x));
    }
  }

  /** Stripping leading whitespace commutes with collapsing. */
  lemma TrimStartCollapse(x: string)
    ensures TrimStart(Collapse(x)) == Collapse(TrimStart(x))
  {
    if |x| > 0 && IsWs(x[0]) {
      var c := Collapse(x);
      assert c[1..] == Collapse(TrimStart(x));
      TrimStartStep(c);
      NoLeadingWs(Collapse(TrimStart(x)));
    } else {
      NoLeadingWs(x);
      NoLeadingWs(Collapse(x));
    }
  }

  /** Collapsing a string that starts with a word copies that word. */
  lemma {:induction false} CollapseWord(t: string)
    requires |t| > 0 && !IsWs(t[0])
    ensures Collapse(t) == TakeWord(t) + Collapse(t[|TakeWord(t)|..])
    decreases |t|
  {
    var t1 := t[1..];
    TakeWordStep(t);
    assert Collapse(t) == [t[0]] + Collapse(t1);
    if |t1| == 0 || IsWs(t1[0]) {
      assert WordLength(t1) == 0;
      assert TakeWord(t) == [t[0]];
      assert t[|TakeWord(t)|..] == t1;
    } else {
      var k := |TakeWord(t1)|;
      CollapseWord(t1);
      assert t1[k..] == t[k + 1..];
      calc {
        Collapse(t);
        [t[0]] + Collapse(t1);
        [t[0]] + (TakeWord(t1) + Collapse(t[k + 1..]));
        { ConcatAssoc([t[0]], TakeWord(t1), Collapse(t[k + 1..])); }
        ([t[0]] + TakeWord(t1)) + Collapse(t[k + 1..]);
        TakeWord(t) + Collapse(t[k + 1..]);
        { assert |TakeWord(t)| == k + 1; }
        TakeWord(t) + Collapse(t[|TakeWord(t)|..]);
      }
    }
  }

  /** Trailing-whitespace stripping only touches the part that holds the trailing run. */
  lemma TrimEndAppend(a: string, b: string)
    requires !IsBlank(b)
    ensures TrimEnd(a + b) == a + TrimEnd(b)
  {
    var ab := a + b;
    var kb := ContentEnd(b);
    var k := ContentEnd(ab);
    assert kb > 0;
    assert ab[|a| + kb - 1] == b[kb - 1];
    assert forall i :: |a| + kb <= i < |ab| ==> ab[i] == b[i - |a|];
    assert k == |a| + kb;
    assert ab[..k] == a + b[..kb];
  }

  /** The first word of a string that starts with one, followed by the remaining words. */
  lemma WordsStep(t: string)
    requires |t| > 0 && !IsWs(t[0])
    ensures Words(t) == [TakeWord(t)] + Words(t[|TakeWord(t)|..])
  {
    NoLeadingWs(t);
  }

  /** Collapsing a string that starts with whitespace. */
  lemma CollapseStep(r: string)
    requires |r| > 0 && IsWs(r[0])
    ensures Collapse(r) == " " + Collapse(TrimStart(r))
  {
  }

  /** A word followed by a collapsed run of whitespace and nothing else strips to the word. */
  lemma TrimEndWordSpace(w: string)
    requires IsWord(w)
    ensures TrimEnd(w + " ") == w
  {
    var s := w + " ";
    assert s[|w|] == ' ' && s[|w| - 1] == w[|w| - 1];
    assert ContentEnd(s) == |w|;
    assert s[..|w|] == w;
  }

  /** Splits off the first word of a string that starts with one: what collapsing makes of
      the string, and its remaining words. */
  lemma FirstWord(t: string)
    requires |t| > 0 && !IsWs(t[0])
    ensures var w := TakeWord(t); var u := TrimStart(t[|w|..]);
      && IsWord(w)
      && (|t[|w|..]| == 0 ==> Collapse(t) == w)
      && (|t[|w|..]| > 0 ==> Collapse(t) == (w + " ") + Collapse(u))
      && Words(t) == [w] + Words(u)
  {
    var w := TakeWord(t);
    var rest := t[|w|..];
    CollapseWord(t);
    WordsStep(t);
    WordsTrimStart(rest);
    if |rest| > 0 {
      CollapseStep(rest);
      var c := Collapse(TrimStart(rest));
      calc {
        Collapse(t);
        w + Collapse(rest);
        w + (" " + c);
        { ConcatAssoc(w, " ", c); }
        (w + " ") + c;
      }
    } else {
      assert w + "" == w;
    }
  }

  /** For a string without leading whitespace, collapsing then stripping the end yields its
      words joined by single spaces. */
  lemma {:induction false} TrimEndCollapseIsJoin(t: string)
    requires |t| == 0 || !IsWs(t[0])
    ensures TrimEnd(Collapse(t)) == JoinSpace(Words(t))
    decreases |t|
  {
    if |t| > 0 {
      var w := TakeWord(t);
      var u := TrimStart(t[|w|..]);
      FirstWord(t);
      if |t[|w|..]| == 0 {
        NoTrailingWs(w);
        assert Words(u) == [];
        assert Words(t) == [w];
      } else if |u| == 0 {
        assert Collapse(t) == w + " " by {
          assert (w + " ") + Collapse(u) == w + " ";
        }
        TrimEndWordSpace(w);
        assert Words(u) == [];
        assert Words(t) == [w];
      } else {
        calc {
          TrimEnd(Collapse(t));
          TrimEnd((w + " ") + Collapse(u));
          { TrimEndCollapseIsJoin(u);
            TrimEndCollapseTail(w, u, JoinSpace(Words(u))); }
          (w + " ") + JoinSpace(Words(u));
          { JoinSpaceCons(w, Words(u)); }
          JoinSpace([w] + Words(u));
          JoinSpace(Words(t));
        }
      }
    }
  }

  /** The inductive step of `TrimEndCollapseIsJoin`, once the first word is split off. */
  lemma TrimEndCollapseTail(w: string, u: string, j: string)
    requires IsWord(w) && |u| > 0 && !IsWs(u[0])
    requires TrimEnd(Collapse(u)) == j
    ensures TrimEnd((w + " ") + Collapse(u)) == (w + " ") + j
  {
    var c := Collapse(u);
    assert !IsBlank(c) by {
      assert !IsWs(c[0]);
    }
    TrimEndAppend(w + " ", c);
  }

  /** The literal body of `flatten_newlines` equals `" ".join(s.split())`. */
  lemma StripCollapseIsJoinOfWords(s: string)
    ensures Strip(Collapse(ReplaceNewlines(s))) == JoinSpace(Words(s))
  {
    CollapseReplace(s);
    TrimStartCollapse(s);
    TrimEndCollapseIsJoin(TrimStart(s));
    WordsTrimStart(s);
  }

  // ---------------------------------------------------------------------------
  // Lemmas: shape of joined and flattened strings

  /** Two flat non-empty strings joined by one space form a flat string. */
  lemma FlatConcat(a: string, b: string)
    requires Flat(a) && Flat(b) && |a| > 0 && |b| > 0
    ensures Flat(a + " " + b)
  {
    var c := a + " " + b;
    forall i | 0 <= i < |c| && IsWs(c[i])
      ensures c[i] == ' '
    {
      if i < |a| {
        assert c[i] == a[i];
      } else if i > |a| {
        assert c[i] == b[i - |a| - 1];
      }
    }
    forall i, j | 0 <= i && j == i + 1 < |c|
      ensures !(IsWs(c[i]) && IsWs(c[j]))
    {
      if i < |a| - 1 {
        assert c[i] == a[i] && c[j] == a[j];
      } else if i == |a| - 1 {
        assert c[i] == a[|a| - 1];
      } else if i == |a| {
        assert c[j] == b[0];
      } else {
        assert c[i] == b[i - |a| - 1] && c[j] == b[j - |a| - 1];
      }
    }
    assert c[|c| - 1] == b[|b| - 1];
  }

  /** A single word is flat. */
  lemma WordIsFlat(w: string)
    requires IsWord(w)
    ensures Flat(w)
  {
  }

  /** Every word of a word list is non-empty and flat. */
  lemma WordsAreFlat(ws: seq<string>)
    requires forall i :: 0 <= i < |ws| ==> IsWord(ws[i])
    ensures forall i :: 0 <= i < |ws| ==> |ws[i]| > 0 && Flat(ws[i])
  {
    forall i | 0 <= i < |ws| ensures |ws[i]| > 0 && Flat(ws[i]) {
      WordIsFlat(ws[i]);
    }
  }

  /** Non-empty flat pieces joined by single spaces form a flat string. */
  lemma {:induction false} JoinFlat(ps: seq<string>)
    requires forall i :: 0 <= i < |ps| ==> |ps[i]| > 0 && Flat(ps[i])
    ensures Flat(JoinSpace(ps))
    ensures |ps| > 0 ==> |JoinSpace(ps)| > 0
  {
    if |ps| == 1 {
      assert JoinSpace(ps) == ps[0];
    } else if |ps| > 1 {
      JoinFlat(ps[1..]);
      FlatConcat(ps[0], JoinSpace(ps[1..]));
      assert JoinSpace(ps) == ps[0] + " " + JoinSpace(ps[1..]);
    }
  }

  /** Splitting words joined by single spaces gives those words back. */
  lemma WordsOfWord(w: string)
    requires IsWord(w)
    ensures Words(w) == [w]
  {
    WordsStep(w);
    TakeWordPrefix(w, "");
    assert w + "" == w;
    assert w[|w|..] == "";
  }

  /** A word, one space, then text starting with a non-space: the word comes first. */
  lemma WordsConsSpace(w: string, j: string)
    requires IsWord(w) && |j| > 0 && !IsWs(j[0])
    ensures Words(w + " " + j) == [w] + Words(j)
  {
    var s := w + " " + j;
    ConcatAssoc(w, " ", j);
    WordsStep(s);
    assert TakeWord(s) == w by {
      TakeWordPrefix(w, " " + j);
    }
    assert s[|w|..] == " " + j by {
      DropPrefix(w, " " + j);
    }
    assert Words(" " + j) == Words(j) by {
      assert (" " + j)[1..] == j;
      TrimStartStep(" " + j);
      NoLeadingWs(j);
      WordsTrimStart(" " + j);
    }
  }

  /** Round trip: the words of words joined by single spaces are those words. */
  lemma {:induction false} WordsOfJoin(ws: seq<string>)
    requires forall i :: 0 <= i < |ws| ==> IsWord(ws[i])
    ensures Words(JoinSpace(ws)) == ws
  {
    if |ws| == 0 {
      assert JoinSpace(ws) == "";
      assert TrimStart("") == "";
    } else if |ws| == 1 {
      WordsOfWord(ws[0]);
    } else if |ws| > 1 {
      var j := JoinSpace(ws[1..]);
      assert |j| > 0 && !IsWs(j[0]) by {
        WordsAreFlat(ws[1..]);
        JoinFlat(ws[1..]);
      }
      assert JoinSpace(ws) == ws[0] + " " + j;
      WordsConsSpace(ws[0], j);
      WordsOfJoin(ws[1..]);
    }
  }

  /** A suffix of a flat string that starts at a non-whitespace character is flat. */
  lemma FlatSuffix(s: string, k: nat)
    requires Flat(s) && k < |s| && !IsWs(s[k])
    ensures Flat(s[k..])
  {
    var u := s[k..];
    forall i | 0 <= i < |u| && IsWs(u[i]) ensures u[i] == ' ' {
      assert u[i] == s[k + i];
    }
    forall i, j | 0 <= i && j == i + 1 < |u| ensures !(IsWs(u[i]) && IsWs(u[j])) {
      assert u[i] == s[k + i] && u[j] == s[k + j];
    }
    assert u[|u| - 1] == s[|s| - 1];
  }

  /** A prefix of a flat string that ends at a non-whitespace character is flat. */
  lemma FlatPrefix(s: string, k: nat)
    requires Flat(s) && 0 < k <= |s| && !IsWs(s[k - 1])
    ensures Flat(s[..k])
  {
    var u := s[..k];
    forall i | 0 <= i < |u| && IsWs(u[i]) ensures u[i] == ' ' {
      assert u[i] == s[i];
    }
    forall i, j | 0 <= i && j == i + 1 < |u| ensures !(IsWs(u[i]) && IsWs(u[j])) {
      assert u[i] == s[i] && u[j] == s[j];
    }
  }

  /** A flat string is either one word, or a word, one space and a flat rest. */
  lemma FlatFirstWord(s: string)
    requires Flat(s) && |s| > 0
    ensures var w := TakeWord(s);
      || (w == s && Words(s) == [w])
      || (|w| + 1 < |s| && s == w + " " + s[|w| + 1..] && Flat(s[|w| + 1..])
          && Words(s) == [w] + Words(s[|w| + 1..]))
  {
    var w := TakeWord(s);
    var k := |w|;
    if k == |s| {
      assert w == s;
      assert Words(s) == [w] by {
        WordsStep(s);
        assert s[k..] == "";
      }
    } else {
      assert s[k] == ' ';
      assert k + 1 < |s| && !IsWs(s[k + 1]);
      var u := s[k + 1..];
      FlatSuffix(s, k + 1);
      assert s == w + " " + u;
      assert Words(s) == [w] + Words(u) by {
        WordsStep(s);
        assert Words(s[k..]) == Words(u) by {
          assert s[k..][1..] == u;
          TrimStartStep(s[k..]);
          NoLeadingWs(u);
          WordsTrimStart(s[k..]);
        }
      }
    }
  }

  /** A flat string is its own words joined by single spaces. */
  lemma {:induction false} FlatIsJoinOfWords(s: string)
    requires Flat(s)
    ensures JoinSpace(Words(s)) == s
    decreases |s|
  {
    if |s| == 0 {
      assert Words(s) == [];
    } else {
      FlatFirstWord(s);
      var w := TakeWord(s);
      if w != s {
        var u := s[|w| + 1..];
        FlatIsJoinOfWords(u);
        assert |Words(u)| > 0 by {
          assert !IsWs(u[0]);
          NoLeadingWs(u);
        }
        JoinSpaceCons(w, Words(u));
      }
    }
  }

  // ---------------------------------------------------------------------------
  // Lemmas: the whitespace collapse on its own

  /** Prepending one character to a collapsed string keeps it collapsed, provided the
      character is not whitespace, or is a single space before a non-whitespace start. */
  lemma ConsCollapsed(ch: char, c: string)
    requires Collapsed(c)
    requires IsWs(ch) ==> ch == ' ' && (|c| == 0 || !IsWs(c[0]))
    ensures Collapsed([ch] + c)
  {
    var r := [ch] + c;
    forall i | 0 <= i < |r| && IsWs(r[i]) ensures r[i] == ' ' {
      if i > 0 {
        assert r[i] == c[i - 1];
      }
    }
    forall i, j | 0 <= i && j == i + 1 < |r| ensures !(IsWs(r[i]) && IsWs(r[j])) {
      if i > 0 {
        assert r[i] == c[i - 1] && r[j] == c[j - 1];
      } else {
        assert r[j] == c[0];
      }
    }
  }

  /** Dropping the first character of a collapsed string keeps it collapsed. */
  lemma CollapsedTail(s: string)
    requires Collapsed(s) && |s| > 0
    ensures Collapsed(s[1..])
  {
    var u := s[1..];
    forall i | 0 <= i < |u| && IsWs(u[i]) ensures u[i] == ' ' {
      assert u[i] == s[i + 1];
    }
    forall i, j | 0 <= i && j == i + 1 < |u| ensures !(IsWs(u[i]) && IsWs(u[j])) {
      assert u[i] == s[i + 1] && u[j] == s[j + 1];
    }
  }

  /** `re.sub(r"\s+", " ", s)` leaves only single spaces as whitespace. */
  lemma {:induction false} CollapseCollapsed(s: string)
    ensures Collapsed(Collapse(s))
    decreases |s|
  {
    if |s| > 0 {
      if IsWs(s[0]) {
        CollapseCollapsed(TrimStart(s));
        ConsCollapsed(' ', Collapse(TrimStart(s)));
        assert Collapse(s) == [' '] + Collapse(TrimStart(s));
      } else {
        CollapseCollapsed(s[1..]);
        ConsCollapsed(s[0], Collapse(s[1..]));
        assert Collapse(s) == [s[0]] + Collapse(s[1..]);
      }
    }
  }

  /** A collapsed string is left unchanged by the whitespace collapse. */
  lemma {:induction false} CollapseFixpoint(s: string)
    requires Collapsed(s)
    ensures Collapse(s) == s
    decreases |s|
  {
    if |s| > 0 {
      CollapsedTail(s);
      CollapseFixpoint(s[1..]);
      if IsWs(s[0]) {
        assert |s| == 1 || !IsWs(s[1]);
        TrimStartStep(s);
        NoLeadingWs(s[1..]);
        assert Collapse(s) == " " + s[1..];
      }
    }
  }

  /** A flat string is left unchanged by `str.strip` and by the whitespace collapse. */
  lemma FlatStripCollapse(s: string)
    requires Flat(s)
    ensures Strip(s) == s && Collapse(s) == s
  {
    NoLeadingWs(s);
    NoTrailingWs(s);
    CollapseFixpoint(s);
  }

  // ---------------------------------------------------------------------------
  // Properties of flatten_newlines

  /** A flat string is left unchanged by flattening. */
  lemma FlattenFixpoint(s: string)
    requires Flat(s)
    ensures Flatten(s) == s
  {
    FlatIsJoinOfWords(s);
  }

  /** Flattening is idempotent. */
  lemma FlattenIdempotent(s: string)
    ensures Flatten(Flatten(s)) == Flatten(s)
  {
    FlattenFixpoint(Flatten(s));
  }

  /** Flattening keeps the words of the text, in order. */
  lemma FlattenKeepsWords(s: string)
    ensures Words(Flatten(s)) == Words(s)
  {
    WordsOfJoin(Words(s));
  }

  /** Flattening yields the empty string exactly for blank input. */
  lemma FlattenEmptyIffBlank(s: string)
    ensures Flatten(s) == "" <==> IsBlank(s)
  {
    var t := TrimStart(s);
    if IsBlank(s) {
      assert |t| == 0 by {
        assert LeadingWs(s) == |s|;
      }
    } else {
      var i :| 0 <= i < |s| && !IsWs(s[i]);
      assert |t| > 0 by {
        assert LeadingWs(s) <= i;
      }
      assert |Words(s)| > 0;
      WordsAreFlat(Words(s));
      JoinFlat(Words(s));
    }
  }

  // ---------------------------------------------------------------------------
  // Lemmas: flattening brings in no character other than a space

  /** The line-break replacement brings in no character other than a space. */
  lemma {:induction false} ReplaceAvoids(s: string, c: char)
    requires c != ' ' && Avoids(s, c)
    ensures Avoids(ReplaceNewlines(s), c)
    decreases |s|
  {
    if |s| > 0 {
      var k := if |s| >= 2 && s[0] == '\r' && s[1] == '\n' then 2 else 1;
      var rest := s[k..];
      assert Avoids(rest, c) by {
        forall i | 0 <= i < |rest| ensures rest[i] != c {
          assert rest[i] == s[i + k];
        }
      }
      ReplaceAvoids(rest, c);
    }
  }

  /** The whitespace collapse brings in no character other than a space. */
  lemma {:induction false} CollapseAvoids(s: string, c: char)
    requires c != ' ' && Avoids(s, c)
    ensures Avoids(Collapse(s), c)
    decreases |s|
  {
    if |s| > 0 {
      var rest := if IsWs(s[0]) then TrimStart(s) else s[1..];
      assert Avoids(rest, c) by {
        var k := |s| - |rest|;
        forall i | 0 <= i < |rest| ensures rest[i] != c {
          assert rest[i] == s[i + k];
        }
      }
      CollapseAvoids(rest, c);
    }
  }

  /** A character other than a space occurs in the flattened text only if it occurs in the
      original. */
  lemma FlattenAvoids(s: string, c: char)
    requires c != ' ' && Avoids(s, c)
    ensures Avoids(Flatten(s), c)
  {
    ReplaceAvoids(s, c);
    var x := Collapse(ReplaceNewlines(s));
    CollapseAvoids(ReplaceNewlines(s), c);
    var t := TrimStart(x);
    assert Avoids(t, c) by {
      forall i | 0 <= i < |t| ensures t[i] != c {
        assert t[i] == x[i + LeadingWs(x)];
      }
    }
    assert Avoids(TrimEnd(t), c) by {
      forall i | 0 <= i < |TrimEnd(t)| ensures TrimEnd(t)[i] != c {
        assert TrimEnd(t)[i] == t[i];
      }
    }
  }

  // ---------------------------------------------------------------------------
  // Lemmas: a line break between two lines becomes one space

  /** Text without carriage returns or line feeds is left alone by the replacements. */
  lemma {:induction false} ReplaceNoBreaks(x: string)
    requires Avoids(x, '\r') && Avoids(x, '\n')
    ensures ReplaceNewlines(x) == x
    decreases |x|
  {
    if |x| > 0 {
      assert Avoids(x[1..], '\r') && Avoids(x[1..], '\n') by {
        forall i | 0 <= i < |x| - 1 ensures x[1..][i] != '\r' && x[1..][i] != '\n' {
          assert x[1..][i] == x[i + 1];
        }
      }
      ReplaceNoBreaks(x[1..]);
      assert x == [x[0]] + x[1..];
    }
  }

  /** The replacements work piece by piece when the first piece does not end in a carriage
      return (which could pair with a line feed at the start of the second). */
  lemma {:induction false} ReplaceAppend(x: string, y: string)
    requires |x| == 0 || x[|x| - 1] != '\r'
    ensures ReplaceNewlines(x + y) == ReplaceNewlines(x) + ReplaceNewlines(y)
    decreases |x|
  {
    if |x| == 0 {
      assert x + y == y;
    } else {
      var k := if |x| >= 2 && x[0] == '\r' && x[1] == '\n' then 2 else 1;
      var h := if k == 2 || x[0] == '\r' || x[0] == '\n' then " " else [x[0]];
      assert ReplaceNewlines(x) == h + ReplaceNewlines(x[k..]);
      assert ReplaceNewlines(x + y) == h + ReplaceNewlines((x + y)[k..]) by {
        assert (x + y)[0] == x[0];
        assert |x| >= 2 ==> (x + y)[1] == x[1];
      }
      assert (x + y)[k..] == x[k..] + y;
      ReplaceAppend(x[k..], y);
      ConcatAssoc(h, ReplaceNewlines(x[k..]), ReplaceNewlines(y));
    }
  }

  /** Two flat lines joined by any line-break convention flatten to the lines joined by one
      space. */
  lemma LineBreakBecomesSpace(a: string, br: string, b: string)
    requires Flat(a) && Flat(b) && |a| > 0 && |b| > 0
    requires br == "\n" || br == "\r\n" || br == "\r"
    ensures Flatten(a + br + b) == a + " " + b
  {
    ReplaceNoBreaks(a);
    ReplaceNoBreaks(b);
    assert ReplaceNewlines(br + b) == " " + b by {
      assert !IsWs(b[0]);
      if br == "\r\n" {
        assert (br + b)[2..] == b;
      } else {
        assert (br + b)[1..] == b;
      }
    }
    ConcatAssoc(a, br, b);
    ReplaceAppend(a, br + b);
    ConcatAssoc(a, " ", b);
    FlatConcat(a, b);
    FlatStripCollapse(a + " " + b);
  }

  // ---------------------------------------------------------------------------
  // Lemmas: the chained replacements are one scan

  /** Replacing a one-character pattern works character by character. */
  lemma ReplaceCharCons(c: char, x: string, p: char)
    ensures ReplaceAll([c] + x, [p], " ") == (if c == p then " " else [c]) + ReplaceAll(x, [p], " ")
  {
    assert ([c] + x)[..1] == [c];
    assert ([c] + x)[1..] == x;
  }

  /** The source's three replacements, applied in its order, are the single left-to-right
      scan `ReplaceNewlines`. */
  lemma {:induction false} ChainedReplaceIsScan(s: string)
    ensures ReplaceAll(ReplaceAll(ReplaceAll(s, "\r\n", " "), "\n", " "), "\r", " ") == ReplaceNewlines(s)
    decreases |s|
  {
    var crlf := "\r\n";
    if |s| == 0 {
    } else if |s| >= 2 && s[0] == '\r' && s[1] == '\n' {
      var x := ReplaceAll(s[2..], crlf, " ");
      assert s[..2] == crlf;
      assert ReplaceAll(s, crlf, " ") == [' '] + x;
      ReplaceCharCons(' ', x, '\n');
      ReplaceCharCons(' ', ReplaceAll(x, "\n", " "), '\r');
      ChainedReplaceIsScan(s[2..]);
    } else {
      var x := ReplaceAll(s[1..], crlf, " ");
      assert ReplaceAll(s, crlf, " ") == [s[0]] + x by {
        if |s| >= 2 {
          assert s[..2] != crlf by {
            assert s[..2][0] == s[0] && s[..2][1] == s[1];
          }
        }
      }
      ReplaceCharCons(s[0], x, '\n');
      var y := ReplaceAll(x, "\n", " ");
      var h := if s[0] == '\n' then ' ' else s[0];
      assert ReplaceAll([s[0]] + x, "\n", " ") == [h] + y;
      ReplaceCharCons(h, y, '\r');
      ChainedReplaceIsScan(s[1..]);
    }
  }
}

=== FILE: optional.dfy ===
/** Plain optional and result types: a cell that may be absent, and an operation that may fail. */
module Optional {

  /** A value that may be missing; models Python's `None` (or any non-string cell). */
  datatype Option<+T> = None | Some(value: T)

  /** The outcome of an operation that either succeeds with a value or fails with an error. */
  datatype Result<+T, +E> = Ok(value: T) | Err(error: E)
}

=== FILE: scrub.dfy ===
/** `clean_caption`: drop every sentence of a caption in which the search finds a term. */
module Scrub {
  import opened Optional
  import opened Text
  import opened Seqs
  import opened Flattening
  import opened Sentences
  import opened WordMatch

  /** The list comprehension's test: a sentence stays unless the search finds a term in it. */
  function KeepsSentence(terms: seq<string>): string -> bool {
    s => !ContainsWord(s, terms)
  }

  /** The sentences that stay, in their original order. */
  function Kept(sentences: seq<string>, terms: seq<string>): seq<string> {
    Filter(sentences, KeepsSentence(terms))
  }

  /** The sentences the scrubber sees in a caption: the pieces of its flattened form. */
  function SentencesOf(v: string): seq<string> {
    Split(Flatten(v))
  }

  /** The scrubber on one cell. A missing value and a blank string pass through untouched;
      anything else is flattened, split into sentences, and rejoined from the sentences
      that stay, with the final strip and whitespace collapse. */
  function CleanCaption(text: Option<string>, terms: seq<string>): (r: Option<string>)
    ensures r.Some? <==> text.Some?
    ensures text.Some? && IsBlank(text.value) ==> r == text
    ensures text.Some? && !IsBlank(text.value) ==>
              r.value == JoinSpace(Kept(SentencesOf(text.value), terms)) && Flat(r.value)
  {
    match text
    case None => None
    case Some(v) =>
      if IsBlank(v) then text
      else
        var f := Flatten(v);
        var sentences := if f == "" then [] else Split(f);
        var kept := Kept(sentences, terms);
        CleanedIsJoin(v, terms);
        Some(Collapse(Strip(JoinSpace(kept))))
  }

  // ---------------------------------------------------------------------------
  // Lemmas

  /** The sentences of a non-blank caption form a sentence sequence. */
  lemma SentencesOfShape(v: string)
    requires !IsBlank(v)
    ensures Flatten(v) != "" && SentenceSeq(SentencesOf(v))
  {
    FlattenEmptyIffBlank(v);
    SplitSentences(Flatten(v));
  }

  /** Dropping sentences from a sentence sequence leaves a sentence sequence. */
  lemma {:induction false} FilterSentenceSeq(ps: seq<string>, p: string -> bool)
    requires SentenceSeq(ps)
    ensures SentenceSeq(Filter(ps, p))
  {
    if |ps| > 0 {
      var rest := Filter(ps[1..], p);
      SentenceSeqTail(ps);
      FilterSentenceSeq(ps[1..], p);
      if !p(ps[0]) {
        assert Filter(ps, p) == rest;
      } else if |ps| == 1 {
        assert Filter(ps, p) == [ps[0]];
      } else {
        assert Filter(ps, p) == [ps[0]] + rest;
        SentenceSeqCons(ps[0], rest);
      }
    }
  }

  /** The final strip and collapse change nothing: the kept sentences joined by single
      spaces are already flat. */
  lemma CleanedIsJoin(v: string, terms: seq<string>)
    requires !IsBlank(v)
    ensures var kept := Kept(SentencesOf(v), terms);
            var j := JoinSpace(kept);
            Flatten(v) != "" && Flat(j) && Collapse(Strip(j)) == j
  {
    SentencesOfShape(v);
    var kept := Kept(SentencesOf(v), terms);
    FilterSentenceSeq(SentencesOf(v), KeepsSentence(terms));
    JoinFlat(kept);
    FlatStripCollapse(JoinSpace(kept));
  }

  /** The sentences that stay in a non-blank caption form a sentence sequence. */
  lemma KeptShape(v: string, terms: seq<string>)
    requires !IsBlank(v)
    ensures SentenceSeq(Kept(SentencesOf(v), terms))
  {
    SentencesOfShape(v);
    FilterSentenceSeq(SentencesOf(v), KeepsSentence(terms));
  }

  /** Round trip: the sentences of a non-empty cleaned caption are exactly the sentences
      that stayed, so none of them contains a term. */
  lemma CleanedSentences(v: string, terms: seq<string>)
    requires !IsBlank(v)
    requires CleanCaption(Some(v), terms).value != ""
    ensures var r := CleanCaption(Some(v), terms).value;
            SentencesOf(r) == Kept(SentencesOf(v), terms)
            && forall i :: 0 <= i < |SentencesOf(r)| ==> !ContainsWord(SentencesOf(r)[i], terms)
  {
    var kept := Kept(SentencesOf(v), terms);
    var r := CleanCaption(Some(v), terms).value;
    KeptShape(v, terms);
    assert |kept| >= 1;
    FlattenFixpoint(r);
    JoinSplit(kept);
  }

  /** A non-blank caption none of whose sentences contains a term comes back flattened and
      otherwise unchanged. */
  lemma CleanKeepsUnmatched(v: string, terms: seq<string>)
    requires !IsBlank(v)
    requires forall i :: 0 <= i < |SentencesOf(v)| ==> !ContainsWord(SentencesOf(v)[i], terms)
    ensures CleanCaption(Some(v), terms) == Some(Flatten(v))
  {
    FilterAll(SentencesOf(v), KeepsSentence(terms));
    SplitJoin(Flatten(v));
  }

  /** A caption every sentence of which contains a term becomes the empty string. */
  lemma CleanDropsAllMatched(v: string, terms: seq<string>)
    requires !IsBlank(v)
    requires forall i :: 0 <= i < |SentencesOf(v)| ==> ContainsWord(SentencesOf(v)[i], terms)
    ensures CleanCaption(Some(v), terms) == Some("")
  {
    FilterNone(SentencesOf(v), KeepsSentence(terms));
  }

  /** A cleaned non-blank caption is already flat, so flattening it again changes nothing. */
  lemma FlattenAfterClean(v: string, terms: seq<string>)
    requires !IsBlank(v)
    ensures Flatten(CleanCaption(Some(v), terms).value) == CleanCaption(Some(v), terms).value
  {
    FlattenFixpoint(CleanCaption(Some(v), terms).value);
  }

  /** Cleaning twice is cleaning once. */
  lemma CleanIdempotent(text: Option<string>, terms: seq<string>)
    ensures CleanCaption(CleanCaption(text, terms), terms) == CleanCaption(text, terms)
  {
    if text.Some? && !IsBlank(text.value) {
      var v := text.value;
      var r := CleanCaption(text, terms).value;
      if r != "" {
        assert !IsBlank(r) by {
          assert Flat(r) && !IsWs(r[0]);
        }
        CleanedSentences(v, terms);
        var kept := Kept(SentencesOf(v), terms);
        FilterAll(kept, KeepsSentence(terms));
        assert Kept(SentencesOf(r), terms) == kept;
      }
    }
  }

  /** On text that is already a run of sentences separated by single spaces, cleaning keeps
      exactly the sentences the search finds nothing in. */
  lemma CleanOnSentences(ps: seq<string>, terms: seq<string>)
    requires SentenceSeq(ps) && |ps| >= 1
    ensures CleanCaption(Some(JoinSpace(ps)), terms) == Some(JoinSpace(Kept(ps, terms)))
  {
    var j := JoinSpace(ps);
    JoinFlat(ps);
    assert !IsBlank(j) by {
      assert !IsWs(j[0]);
    }
    FlattenFixpoint(j);
    JoinSplit(ps);
  }

  /** A sentence with a term in it, followed by one without: only the second survives. */
  lemma DropsMatchingSentence(a: string, b: string, terms: seq<string>)
    requires IsSentence(a) && IsTerminal(a[|a| - 1]) && IsSentence(b)
    requires ContainsWord(a, terms) && !ContainsWord(b, terms)
    ensures CleanCaption(Some(a + " " + b), terms) == Some(b)
  {
    var ps := [a, b];
    assert SentenceSeq(ps);
    assert JoinSpace(ps) == a + " " + JoinSpace([b]);
    CleanOnSentences(ps, terms);
    assert Kept(ps, terms) == [b] by {
      assert Kept([b], terms) == [b];
      assert ps[1..] == [b];
    }
  }

  /** With the placeholder pattern the script actually ships, a caption that does not
      contain the digit 6 loses no sentence: it only comes back flattened. */
  lemma ShippedPatternOnlyFlattens(v: string)
    requires !IsBlank(v) && Avoids(v, '6')
    ensures CleanCaption(Some(v), ActiveTerms) == Some(Flatten(v))
  {
    FlattenAvoids(v, '6');
    SplitAvoids(Flatten(v), '6');
    var ss := SentencesOf(v);
    forall i | 0 <= i < |ss| ensures !ContainsWord(ss[i], ActiveTerms) {
      ActiveNeedsDigit(ss[i]);
    }
    CleanKeepsUnmatched(v, ActiveTerms);
  }

  /** A non-blank caption is emptied exactly when every one of its sentences is dropped. */
  lemma CleanBlankIff(v: string, terms: seq<string>)
    requires !IsBlank(v)
    ensures IsBlank(CleanCaption(Some(v), terms).value) <==> Kept(SentencesOf(v), terms) == []
  {
    var kept := Kept(SentencesOf(v), terms);
    var r := CleanCaption(Some(v), terms).value;
    SentencesOfShape(v);
    FilterSentenceSeq(SentencesOf(v), KeepsSentence(terms));
    JoinFlat(kept);
    if |kept| > 0 {
      assert !IsWs(r[0]);
    }
  }
}

=== FILE: sentences.dfy ===
/** `SENT_SPLIT_REGEX.split`: the text is cut at every whitespace run that directly follows
    `.`, `!` or `?`; the punctuation stays with the piece on its left and the run itself is
    dropped. */
module Sentences {
  import opened Text
  import opened Flattening

  /** Position `k` starts a whitespace run right after sentence-ending punctuation. */
  predicate IsCut(s: string, k: int) {
    0 < k < |s| && IsTerminal(s[k - 1]) && IsWs(s[k])
  }

  /** `s` holds no split point: the splitter leaves it whole. */
  predicate NoCut(s: string) {
    forall k :: 0 < k < |s| ==> !IsCut(s, k)
  }

  /** A sentence as the scrubber sees it: non-empty, flat, and not split any further. */
  predicate IsSentence(p: string) {
    |p| > 0 && Flat(p) && NoCut(p)
  }

  /** A sequence of sentences in which every sentence but the last ends in punctuation:
      the shape of the splitter's output on flattened text. */
  predicate SentenceSeq(ps: seq<string>) {
    && (forall i :: 0 <= i < |ps| ==> IsSentence(ps[i]))
    && (forall i :: 0 <= i < |ps| - 1 ==> IsTerminal(ps[i][|ps[i]| - 1]))
  }

  /** The first split point at or after `i`, or `|s|` when there is none. */
  function FindCut(s: string, i: nat): (k: nat)
    ensures k <= |s|
    ensures k < |s| ==> i <= k && IsCut(s, k)
    ensures forall j :: i <= j < k ==> !IsCut(s, j)
    decreases |s| - i
  {
    if i >= |s| then |s|
    else if IsCut(s, i) then i
    else FindCut(s, i + 1)
  }

  /** `SENT_SPLIT_REGEX.split(s)`: the pieces between split points, in order. */
  function Split(s: string): (r: seq<string>)
    ensures |r| >= 1
    decreases |s|
  {
    var k := FindCut(s, 1);
    if k == |s| then [s] else [s[..k]] + Split(TrimStart(s[k..]))
  }

  /** The shape of the splitter's output: no piece holds a split point, and every piece but
      the last is non-empty and ends in `.`, `!` or `?`. */
  predicate Pieces(r: seq<string>) {
    && (forall i :: 0 <= i < |r| ==> NoCut(r[i]))
    && (forall i :: 0 <= i < |r| - 1 ==> |r[i]| > 0 && IsTerminal(r[i][|r[i]| - 1]))
  }

  /** No piece of the split holds a split point, and every piece but the last is non-empty
      and ends in `.`, `!` or `?`. */
  lemma {:induction false} SplitPieces(s: string)
    ensures Pieces(Split(s))
    decreases |s|
  {
    var k := FindCut(s, 1);
    NoCutPrefix(s, k);
    if k == |s| {
      assert Split(s) == [s];
      assert s[..k] == s;
    } else {
      var rest := TrimStart(s[k..]);
      assert s[..k][k - 1] == s[k - 1];
      SplitPieces(rest);
      PiecesCons(s[..k], Split(rest));
      assert Split(s) == [s[..k]] + Split(rest);
    }
  }

  /** The text before the first split point holds none. */
  lemma NoCutPrefix(s: string, k: nat)
    requires k <= |s| && forall j :: 1 <= j < k ==> !IsCut(s, j)
    ensures NoCut(s[..k])
  {
    var first := s[..k];
    forall j | 0 < j < k ensures !IsCut(first, j) {
      assert !IsCut(s, j);
      assert first[j - 1] == s[j - 1] && first[j] == s[j];
    }
  }

  /** A first piece ending in punctuation and holding no split point extends the shape
      `Split` promises. */
  lemma PiecesCons(p: string, ps: seq<string>)
    requires |p| > 0 && NoCut(p) && IsTerminal(p[|p| - 1]) && Pieces(ps)
    ensures Pieces([p] + ps)
  {
    var r := [p] + ps;
    forall i | 0 < i < |r| ensures r[i] == ps[i - 1] {
    }
  }

  // ---------------------------------------------------------------------------
  // Lemmas

  /** The splitter returns its input whole exactly when the input holds no split point. */
  lemma SplitWholeIffNoCut(s: string)
    ensures Split(s) == [s] <==> NoCut(s)
  {
    var k := FindCut(s, 1);
    if NoCut(s) {
      assert k == |s|;
    } else {
      var j :| 0 < j < |s| && IsCut(s, j);
      assert k <= j;
      assert |Split(s)[0]| == k;
    }
  }

  /** Splitting a flat text at a split point: the cut is a single space. */
  lemma FlatCut(s: string, k: nat)
    requires Flat(s) && IsCut(s, k)
    ensures s[k] == ' ' && k + 1 < |s| && !IsWs(s[k + 1])
    ensures TrimStart(s[k..]) == s[k + 1..]
    ensures Flat(s[k + 1..])
    ensures s == s[..k] + " " + s[k + 1..]
  {
    assert s[k] == ' ';
    assert k + 1 < |s|;
    assert !IsWs(s[k + 1]);
    assert s[k..][1..] == s[k + 1..];
    TrimStartStep(s[k..]);
    NoLeadingWs(s[k + 1..]);
    FlatSuffix(s, k + 1);
  }

  /** Round trip: joining the sentences of a flat text with single spaces gives the text. */
  lemma {:induction false} SplitJoin(s: string)
    requires Flat(s)
    ensures JoinSpace(Split(s)) == s
    decreases |s|
  {
    var k := FindCut(s, 1);
    if k < |s| {
      FlatCut(s, k);
      var rest := s[k + 1..];
      SplitJoin(rest);
      assert Split(s) == [s[..k]] + Split(rest);
      JoinSpaceCons(s[..k], Split(rest));
    }
  }

  /** A sentence ending in punctuation, put in front of a sentence sequence, extends it. */
  lemma SentenceSeqCons(p: string, ps: seq<string>)
    requires IsSentence(p) && IsTerminal(p[|p| - 1]) && SentenceSeq(ps)
    ensures SentenceSeq([p] + ps)
  {
    var r := [p] + ps;
    forall i | 0 < i < |r| ensures r[i] == ps[i - 1] {
    }
  }

  /** The sentences of a non-empty flat text are non-empty and flat themselves. */
  lemma {:induction false} SplitSentences(s: string)
    requires Flat(s) && |s| > 0
    ensures SentenceSeq(Split(s))
    decreases |s|
  {
    var k := FindCut(s, 1);
    if k == |s| {
      NoCutPrefix(s, k);
      assert s[..k] == s;
      assert Split(s) == [s];
    } else {
      var rest := s[k + 1..];
      FirstSentence(s, k);
      SplitAt(s, k);
      SplitSentences(rest);
      SentenceSeqCons(s[..k], Split(rest));
    }
  }

  /** In a flat text, the part before the first split point is a sentence ending in
      punctuation, and the part after the single space is flat text again. */
  lemma FirstSentence(s: string, k: nat)
    requires Flat(s) && k < |s| && FindCut(s, 1) == k
    ensures IsSentence(s[..k]) && IsTerminal(s[..k][k - 1])
    ensures |s[k + 1..]| > 0 && Flat(s[k + 1..]) && TrimStart(s[k..]) == s[k + 1..]
  {
    FlatCut(s, k);
    FlatPrefix(s, k);
    NoCutPrefix(s, k);
    assert s[..k][k - 1] == s[k - 1];
  }

  /** The sentences after the first one of a sentence sequence form one too. */
  lemma SentenceSeqTail(ps: seq<string>)
    requires SentenceSeq(ps) && |ps| > 0
    ensures SentenceSeq(ps[1..])
  {
    var t := ps[1..];
    forall i | 0 <= i < |t| ensures IsSentence(t[i]) {
      assert t[i] == ps[i + 1];
    }
    forall i | 0 <= i < |t| - 1 ensures IsTerminal(t[i][|t[i]| - 1]) {
      assert t[i] == ps[i + 1];
    }
  }

  /** Round trip the other way: splitting sentences joined by single spaces gives them back. */
  lemma {:induction false} JoinSplit(ps: seq<string>)
    requires SentenceSeq(ps) && |ps| >= 1
    ensures Split(JoinSpace(ps)) == ps
  {
    var p := ps[0];
    if |ps| == 1 {
      SplitWholeIffNoCut(p);
    } else {
      SentenceSeqTail(ps);
      var rest := ps[1..];
      var j := JoinSpace(rest);
      assert |j| > 0 && !IsWs(j[0]) by {
        JoinFlat(rest);
      }
      assert JoinSpace(ps) == p + " " + j;
      SplitCons(p, j);
      JoinSplit(rest);
      assert ps == [p] + rest;
    }
  }

  /** A sentence ending in punctuation, a space, then text starting with a non-space:
      the splitter cuts exactly after the sentence. */
  lemma SplitCons(p: string, j: string)
    requires IsSentence(p) && IsTerminal(p[|p| - 1])
    requires |j| > 0 && !IsWs(j[0])
    ensures Split(p + " " + j) == [p] + Split(j)
  {
    var s := p + " " + j;
    var k := |p|;
    FirstCutAfter(p, j);
    SplitAt(s, k);
    assert s[..k] == p;
    assert TrimStart(s[k..]) == j by {
      assert s[k..] == " " + j;
      TrimStartSpace(j);
    }
  }

  /** The first split point of a sentence, a space and more text is that space. */
  lemma FirstCutAfter(p: string, j: string)
    requires |p| > 0 && NoCut(p) && IsTerminal(p[|p| - 1])
    requires |j| > 0
    ensures FindCut(p + " " + j, 1) == |p|
  {
    var s := p + " " + j;
    var k := |p|;
    assert s[k - 1] == p[k - 1] && s[k] == ' ';
    forall i | 1 <= i < k ensures !IsCut(s, i) {
      assert s[i - 1] == p[i - 1] && s[i] == p[i];
      assert !IsCut(p, i);
    }
    FindCutAt(s, k);
  }

  /** One step of the splitter at its first split point. */
  lemma SplitAt(s: string, k: nat)
    requires k < |s| && FindCut(s, 1) == k
    ensures Split(s) == [s[..k]] + Split(TrimStart(s[k..]))
  {
  }

  /** The first split point is the one with none before it. */
  lemma FindCutAt(s: string, k: nat)
    requires IsCut(s, k) && forall i :: 1 <= i < k ==> !IsCut(s, i)
    ensures FindCut(s, 1) == k
  {
  }

  /** One space in front of text that starts with a non-space is all `lstrip` removes. */
  lemma TrimStartSpace(j: string)
    requires |j| > 0 && !IsWs(j[0])
    ensures TrimStart(" " + j) == j
  {
    assert (" " + j)[1..] == j;
    TrimStartStep(" " + j);
    NoLeadingWs(j);
  }

  /** Every piece of the split is made of characters of the text. */
  lemma {:induction false} SplitAvoids(s: string, c: char)
    requires Avoids(s, c)
    ensures forall i :: 0 <= i < |Split(s)| ==> Avoids(Split(s)[i], c)
    decreases |s|
  {
    var k := FindCut(s, 1);
    if k == |s| {
      assert Split(s) == [s];
    } else {
      var first := s[..k];
      var rest := TrimStart(s[k..]);
      AvoidsSlice(s, c, 0, k);
      assert rest == s[k + LeadingWs(s[k..])..];
      AvoidsSlice(s, c, k + LeadingWs(s[k..]), |s|);
      SplitAvoids(rest, c);
      AllAvoidCons(first, Split(rest), c);
      assert Split(s) == [first] + Split(rest);
    }
  }

  /** A piece without `c` in front of pieces without `c`. */
  lemma AllAvoidCons(p: string, ps: seq<string>, c: char)
    requires Avoids(p, c) && forall i :: 0 <= i < |ps| ==> Avoids(ps[i], c)
    ensures forall i :: 0 <= i < |[p] + ps| ==> Avoids(([p] + ps)[i], c)
  {
    var r := [p] + ps;
    forall i | 0 < i < |r| ensures r[i] == ps[i - 1] {
    }
  }
}

=== FILE: seqs.dfy ===
/** Order-preserving filtering of sequences, used both for the sentences a caption keeps
    and for the rows the drop-empty step keeps. */
module Seqs {
  import opened Optional

  /** The number of elements of `s` that satisfy `p`. */
  function Count<T>(s: seq<T>, p: T -> bool): (n: nat)
    ensures n <= |s|
  {
    if |s| == 0 then 0 else (if p(s[0]) then 1 else 0) + Count(s[1..], p)
  }

  /** The negation of a predicate. */
  function Not<T>(p: T -> bool): T -> bool {
    x => !p(x)
  }

  /** `a` is obtained from `b` by deleting elements: same elements, same relative order. */
  ghost predicate IsSubseq<T>(a: seq<T>, b: seq<T>)
    decreases |b|
  {
    |a| == 0 || (|b| > 0 && ((a[0] == b[0] && IsSubseq(a[1..], b[1..])) || IsSubseq(a, b[1..])))
  }

  /** The elements of `s` that satisfy `p`, in their original order (a list comprehension
      `[x for x in s if p(x)]`). */
  function Filter<T>(s: seq<T>, p: T -> bool): (r: seq<T>)
    ensures forall i :: 0 <= i < |r| ==> p(r[i])
    ensures forall i :: 0 <= i < |r| ==> r[i] in s
    ensures forall i :: 0 <= i < |s| && p(s[i]) ==> s[i] in r
    ensures |r| == Count(s, p)
    ensures IsSubseq(r, s)
  {
    if |s| == 0 then []
    else if p(s[0]) then [s[0]] + Filter(s[1..], p)
    else Filter(s[1..], p)
  }

  /** Filtering with a predicate every element satisfies changes nothing. */
  lemma {:induction false} FilterAll<T>(s: seq<T>, p: T -> bool)
    requires forall i :: 0 <= i < |s| ==> p(s[i])
    ensures Filter(s, p) == s
  {
    if |s| > 0 {
      FilterAll(s[1..], p);
    }
  }

  /** Filtering with a predicate no element satisfies leaves nothing. */
  lemma {:induction false} FilterNone<T>(s: seq<T>, p: T -> bool)
    requires forall i :: 0 <= i < |s| ==> !p(s[i])
    ensures Filter(s, p) == []
  {
    if |s| > 0 {
      FilterNone(s[1..], p);
    }
  }

  /** Every element is counted either by `p` or by its negation. */
  lemma {:induction false} CountComplement<T>(s: seq<T>, p: T -> bool)
    ensures Count(s, p) + Count(s, Not(p)) == |s|
  {
    if |s| > 0 {
      CountComplement(s[1..], p);
    }
  }

  /** `f` applied to every element. */
  function Map<A, B>(s: seq<A>, f: A -> B): (r: seq<B>)
    ensures |r| == |s|
    ensures forall i :: 0 <= i < |s| ==> r[i] == f(s[i])
  {
    seq(|s|, i requires 0 <= i < |s| => f(s[i]))
  }

  /** The present values, in order. */
  function Somes<T>(s: seq<Option<T>>): (r: seq<T>)
    ensures |r| <= |s|
  {
    if |s| == 0 then []
    else (if s[0].Some? then [s[0].value] else []) + Somes(s[1..])
  }

  /** Filtering and then mapping is the same as one pass that maps each element to an
      optional result and keeps the present ones. */
  lemma {:induction false} FilterMapIsSomes<A, B>(s: seq<A>, p: A -> bool, g: A -> B, h: A -> Option<B>)
    requires forall i :: 0 <= i < |s| ==> h(s[i]) == if p(s[i]) then Some(g(s[i])) else None
    ensures Map(Filter(s, p), g) == Somes(Map(s, h))
  {
    if |s| == 0 {
      assert Map(Filter(s, p), g) == [];
      assert Map(s, h) == [];
    } else {
      var tail := s[1..];
      assert forall i :: 0 <= i < |tail| ==> tail[i] == s[i + 1];
      FilterMapIsSomes(tail, p, g, h);
      var hs := Map(s, h);
      assert hs[1..] == Map(tail, h);
      assert hs[0] == h(s[0]);
      var rest := Somes(Map(tail, h));
      if p(s[0]) {
        calc {
          Map(Filter(s, p), g);
          { assert Filter(s, p) == [s[0]] + Filter(tail, p); }
          Map([s[0]] + Filter(tail, p), g);
          { MapCons(s[0], Filter(tail, p), g); }
          [g(s[0])] + rest;
          [hs[0].value] + Somes(hs[1..]);
          Somes(hs);
        }
      } else {
        calc {
          Map(Filter(s, p), g);
          { assert Filter(s, p) == Filter(tail, p); }
          rest;
          { assert [] + rest == rest; }
          Somes(hs);
        }
      }
    }
  }

  /** Mapping over a sequence with a first element: that element's image comes first. */
  lemma MapCons<A, B>(x: A, s: seq<A>, f: A -> B)
    ensures Map([x] + s, f) == [f(x)] + Map(s, f)
  {
  }

  /** When every value is present, nothing is dropped and the order is kept. */
  lemma {:induction false} SomesAllPresent<T>(s: seq<Option<T>>)
    requires forall i :: 0 <= i < |s| ==> s[i].Some?
    ensures |Somes(s)| == |s|
    ensures forall i :: 0 <= i < |s| ==> Somes(s)[i] == s[i].value
  {
    if |s| > 0 {
      SomesAllPresent(s[1..]);
      assert Somes(s) == [s[0].value] + Somes(s[1..]);
    }
  }
}

=== FILE: table.dfy ===
/** The table steps of the command: check the target column, optionally back it up, scrub
    it, optionally drop the rows it leaves empty, and by default flatten every cell. */
module CsvTable {
  import opened Optional
  import opened Text
  import opened Seqs
  import opened Flattening
  import opened Scrub

  /** A cell: a string, or a missing value. */
  type Cell = Option<string>

  /** A row maps each column name to its cell. */
  type Row = map<string, Cell>

  /** A table as read from the CSV file: the column names in order, then the rows. */
  datatype Table = Table(columns: seq<string>, rows: seq<Row>)

  /** The column names as a set. */
  function ColumnSet(cs: seq<string>): set<string> {
    set c | c in cs
  }

  /** Column names are distinct and every row has a cell for exactly those columns. */
  predicate WellFormed(t: Table) {
    && (forall i, j :: 0 <= i < j < |t.columns| ==> t.columns[i] != t.columns[j])
    && (forall i :: 0 <= i < |t.rows| ==> t.rows[i].Keys == ColumnSet(t.columns))
  }

  /** The column scrubbed when none is named. */
  const DefaultColumn: string := "caption"

  /** The command-line switches that affect the table: the target column, whether to keep
      a backup of it, whether to drop rows it leaves empty, and whether to flatten every
      cell (the default; switched off by the no-flatten-all flag). */
  datatype Options = Options(column: string, keepOriginal: bool, dropEmpty: bool, flattenAll: bool)

  const DefaultOptions: Options := Options(DefaultColumn, false, false, true)

  /** The target column is not in the table; the message lists the columns there are. */
  datatype PipelineError = MissingColumn(column: string, available: seq<string>)

  /** The process exit status the error ends the command with. */
  function ExitCode(e: PipelineError): int {
    match e
    case MissingColumn(_, _) => 2
  }

  /** The table to write, and how many rows the drop-empty step removed (zero when that
      step is off). */
  datatype Outcome = Outcome(table: Table, removed: nat)

  /** The name of the backup column. */
  function BackupName(col: string): (b: string)
    ensures b != col && |b| > |col| && b[..|col|] == col
  {
    col + "_orig"
  }

  // ---------------------------------------------------------------------------
  // One row at a time

  /** Copies the target cell into the backup column, adding or overwriting it. */
  function BackupRow(row: Row, col: string): (r: Row)
    ensures r.Keys == row.Keys + {BackupName(col)}
  {
    if col in row then row[BackupName(col) := row[col]] else row[BackupName(col) := None]
  }

  /** Runs the scrubber on the target cell. */
  function ScrubRow(row: Row, col: string, terms: seq<string>): (r: Row)
    ensures r.Keys == row.Keys
  {
    if col in row then row[col := CleanCaption(row[col], terms)] else row
  }

  /** `flatten_newlines` on a cell: a missing value stays missing. */
  function FlattenCell(c: Cell): (r: Cell)
    ensures r.None? <==> c.None?
    ensures r.Some? ==> Flat(r.value) && Words(r.value) == Words(c.value)
  {
    match c
    case None => None
    case Some(v) => FlattenKeepsWords(v); Some(Flatten(v))
  }

  /** `flatten_newlines` on every cell of a row. */
  function FlattenRow(row: Row): (r: Row)
    ensures r.Keys == row.Keys
  {
    map k | k in row :: FlattenCell(row[k])
  }

  /** The drop-empty test: the target cell is present and not blank. */
  function Survives(col: string): Row -> bool {
    (row: Row) => col in row && row[col].Some? && !IsBlank(row[col].value)
  }

  // ---------------------------------------------------------------------------
  // The steps, one column at a time as the command runs them

  /** `df[f"{col}_orig"] = df[col]`: copies the target column into the backup column. */
  function Backup(t: Table, col: string): (r: Table)
    ensures WellFormed(t) && col in t.columns ==> WellFormed(r)
    ensures r.columns == if BackupName(col) in t.columns then t.columns else t.columns + [BackupName(col)]
    ensures |r.rows| == |t.rows|
    ensures forall i :: 0 <= i < |t.rows| && col in t.rows[i] ==>
              BackupName(col) in r.rows[i] && r.rows[i][BackupName(col)] == t.rows[i][col]
    ensures forall i, k :: 0 <= i < |t.rows| && k in t.rows[i] && k != BackupName(col) ==>
              k in r.rows[i] && r.rows[i][k] == t.rows[i][k]
  {
    var b := BackupName(col);
    var cols := if b in t.columns then t.columns else t.columns + [b];
    var r := Table(cols, Map(t.rows, row => BackupRow(row, col)));
    assert WellFormed(t) && col in t.columns ==> WellFormed(r) by {
      if WellFormed(t) && col in t.columns {
        assert ColumnSet(cols) == ColumnSet(t.columns) + {b};
        if b !in t.columns {
          forall i, j | 0 <= i < j < |cols| ensures cols[i] != cols[j] {
            if j == |cols| - 1 {
              assert cols[i] in t.columns;
            }
          }
        }
      }
    }
    r
  }

  /** `df[col].apply(clean_caption)`: cleans the target cell of every row. */
  function ScrubColumn(t: Table, col: string, terms: seq<string>): (r: Table)
    ensures WellFormed(t) ==> WellFormed(r)
    ensures r.columns == t.columns && |r.rows| == |t.rows|
    ensures forall i :: 0 <= i < |t.rows| && col in t.rows[i] ==>
              col in r.rows[i] && r.rows[i][col] == CleanCaption(t.rows[i][col], terms)
    ensures forall i, k :: 0 <= i < |t.rows| && k in t.rows[i] && k != col ==>
              k in r.rows[i] && r.rows[i][k] == t.rows[i][k]
  {
    Table(t.columns, Map(t.rows, row => ScrubRow(row, col, terms)))
  }

  /** Keeps the rows whose target cell is present and not blank, and reports how many
      were removed. */
  function DropEmpty(t: Table, col: string): (r: (Table, nat))
    ensures WellFormed(t) ==> WellFormed(r.0)
    ensures r.0.columns == t.columns
    ensures r.0.rows == Filter(t.rows, Survives(col))
    ensures r.1 == |t.rows| - |r.0.rows| == Count(t.rows, Not(Survives(col)))
    ensures forall i :: 0 <= i < |r.0.rows| ==> Survives(col)(r.0.rows[i])
  {
    var kept := Filter(t.rows, Survives(col));
    CountComplement(t.rows, Survives(col));
    (Table(t.columns, kept), |t.rows| - |kept|)
  }

  /** `flatten_newlines` applied to every cell of every column. */
  function FlattenAll(t: Table): (r: Table)
    ensures WellFormed(t) ==> WellFormed(r)
    ensures r.columns == t.columns && |r.rows| == |t.rows|
    ensures forall i :: 0 <= i < |t.rows| ==> r.rows[i].Keys == t.rows[i].Keys
    ensures forall i, k :: 0 <= i < |t.rows| && k in t.rows[i] ==>
              r.rows[i][k] == FlattenCell(t.rows[i][k])
  {
    Table(t.columns, Map(t.rows, FlattenRow))
  }

  /** The command's table steps in order; a missing target column is an error. */
  function Pipeline(t: Table, opts: Options, terms: seq<string>): (r: Result<Outcome, PipelineError>)
    ensures r.Err? <==> opts.column !in t.columns
    ensures r.Err? ==> r.error == MissingColumn(opts.column, t.columns) && ExitCode(r.error) == 2
    ensures r.Ok? && WellFormed(t) ==> WellFormed(r.value.table)
    ensures r.Ok? ==> r.value.removed + |r.value.table.rows| == |t.rows|
    ensures r.Ok? && !opts.dropEmpty ==> r.value.removed == 0
    ensures r.Ok? ==> r.value.table.columns ==
                        (if opts.keepOriginal && BackupName(opts.column) !in t.columns
                         then t.columns + [BackupName(opts.column)] else t.columns)
  {
    var col := opts.column;
    if col !in t.columns then
      Err(MissingColumn(col, t.columns))
    else
      var backed := if opts.keepOriginal then Backup(t, col) else t;
      var scrubbed := ScrubColumn(backed, col, terms);
      var (kept, removed) := if opts.dropEmpty then DropEmpty(scrubbed, col) else (scrubbed, 0);
      var flat := if opts.flattenAll then FlattenAll(kept) else kept;
      Ok(Outcome(flat, removed))
  }

  // ---------------------------------------------------------------------------
  // The same steps, one row at a time

  /** Backup (when asked for) and scrub, on one row. */
  function PrepareRow(row: Row, opts: Options, terms: seq<string>): Row {
    var col := opts.column;
    ScrubRow(if opts.keepOriginal then BackupRow(row, col) else row, col, terms)
  }

  /** The drop-empty test when that step is on; otherwise every row stays. */
  function KeepRow(opts: Options): Row -> bool {
    if opts.dropEmpty then Survives(opts.column) else (y: Row) => true
  }

  /** Flattening of every cell when that step is on; otherwise nothing. */
  function FinishRow(opts: Options): Row -> Row {
    if opts.flattenAll then FlattenRow else (y: Row) => y
  }

  /** What the command does to one row, start to finish; `None` when the drop-empty step
      removes it. */
  function ProcessRow(row: Row, opts: Options, terms: seq<string>): Option<Row> {
    var y := PrepareRow(row, opts, terms);
    if KeepRow(opts)(y) then Some(FinishRow(opts)(y)) else None
  }

  /** The rows after the backup and scrub steps, row by row. */
  lemma PreparedRows(t: Table, opts: Options, terms: seq<string>)
    ensures var backed := if opts.keepOriginal then Backup(t, opts.column) else t;
            ScrubColumn(backed, opts.column, terms).rows == Map(t.rows, row => PrepareRow(row, opts, terms))
  {
  }

  /** The rows the command writes, as a filter and a map over the prepared rows. */
  lemma PipelineRows(t: Table, opts: Options, terms: seq<string>)
    requires opts.column in t.columns
    ensures Pipeline(t, opts, terms).value.table.rows ==
              Map(Filter(Map(t.rows, row => PrepareRow(row, opts, terms)), KeepRow(opts)), FinishRow(opts))
  {
    PreparedRows(t, opts, terms);
    var prepared := Map(t.rows, row => PrepareRow(row, opts, terms));
    if !opts.dropEmpty {
      FilterAll(prepared, KeepRow(opts));
    }
  }

  /** Running the steps column by column, as the command does, treats every row on its
      own: the output rows are the surviving rows processed one at a time, in order. */
  lemma PipelineRowByRow(t: Table, opts: Options, terms: seq<string>)
    requires opts.column in t.columns
    ensures Pipeline(t, opts, terms).value.table.rows ==
              Somes(Map(t.rows, row => ProcessRow(row, opts, terms)))
  {
    var prepared := Map(t.rows, row => PrepareRow(row, opts, terms));
    var p, g := KeepRow(opts), FinishRow(opts);
    var h := (y: Row) => if p(y) then Some(g(y)) else None;
    PipelineRows(t, opts, terms);
    FilterMapIsSomes(prepared, p, g, h);
    assert Map(prepared, h) == Map(t.rows, row => ProcessRow(row, opts, terms));
  }

  /** The target cell after the backup and scrub steps is the scrubbed original. */
  lemma PreparedCaption(row: Row, opts: Options, terms: seq<string>)
    requires opts.column in row
    ensures var y := PrepareRow(row, opts, terms);
            opts.column in y && y[opts.column] == CleanCaption(row[opts.column], terms)
  {
    assert BackupName(opts.column) != opts.column;
  }

  /** A row is removed exactly when the drop-empty step is on and its target cell is
      missing, blank, or loses every sentence to the scrubber. */
  lemma RowDroppedIff(row: Row, opts: Options, terms: seq<string>)
    requires opts.column in row
    ensures var c := row[opts.column];
            ProcessRow(row, opts, terms).None? <==>
              opts.dropEmpty && (c.None? || IsBlank(c.value) || Kept(SentencesOf(c.value), terms) == [])
  {
    PreparedCaption(row, opts, terms);
    var c := row[opts.column];
    if c.Some? && !IsBlank(c.value) {
      CleanBlankIff(c.value, terms);
    }
  }

  /** The target cell of a row that is written: the scrubbed caption, except that under
      flatten-all a blank caption, which the scrubber passes through, becomes empty. */
  lemma RowCaption(row: Row, opts: Options, terms: seq<string>)
    requires opts.column in row && ProcessRow(row, opts, terms).Some?
    ensures var c := row[opts.column];
            var out := ProcessRow(row, opts, terms).value;
            opts.column in out &&
            out[opts.column] == if opts.flattenAll && c.Some? && IsBlank(c.value) then Some("")
                                else CleanCaption(c, terms)
  {
    PreparedCaption(row, opts, terms);
    var c := row[opts.column];
    if opts.flattenAll && c.Some? {
      if IsBlank(c.value) {
        FlattenEmptyIffBlank(c.value);
      } else {
        FlattenAfterClean(c.value, terms);
      }
    }
  }

  /** The backup cell of a row that is written holds the original caption, flattened
      when flatten-all is on. */
  lemma RowBackup(row: Row, opts: Options, terms: seq<string>)
    requires opts.keepOriginal && opts.column in row && ProcessRow(row, opts, terms).Some?
    ensures var b := BackupName(opts.column);
            var out := ProcessRow(row, opts, terms).value;
            b in out && out[b] == if opts.flattenAll then FlattenCell(row[opts.column]) else row[opts.column]
  {
    assert BackupName(opts.column) != opts.column;
  }

  /** Every other cell of a row that is written is the original cell, flattened when
      flatten-all is on; the row gains only the backup column. */
  lemma RowOtherCells(row: Row, opts: Options, terms: seq<string>, k: string)
    requires k in row && k != opts.column && !(opts.keepOriginal && k == BackupName(opts.column))
    requires ProcessRow(row, opts, terms).Some?
    ensures var out := ProcessRow(row, opts, terms).value;
            k in out && out[k] == if opts.flattenAll then FlattenCell(row[k]) else row[k]
  {
  }

  /** The keys of a written row: the original ones, plus the backup column when asked for. */
  lemma RowKeys(row: Row, opts: Options, terms: seq<string>)
    requires ProcessRow(row, opts, terms).Some?
    ensures ProcessRow(row, opts, terms).value.Keys ==
              row.Keys + (if opts.keepOriginal then {BackupName(opts.column)} else {})
  {
  }

  /** One record per line: under flatten-all no written cell holds a line break, a leading
      or trailing blank, or a run of whitespace. */
  lemma OneRecordPerLine(t: Table, opts: Options, terms: seq<string>)
    requires opts.column in t.columns && opts.flattenAll
    ensures var rows: seq<Row> := Pipeline(t, opts, terms).value.table.rows;
            forall i, k :: 0 <= i < |rows| && k in rows[i] && rows[i][k].Some? ==>
              Flat(rows[i][k].value) && '\n' !in rows[i][k].value && '\r' !in rows[i][k].value
  {
    var rows: seq<Row> := Pipeline(t, opts, terms).value.table.rows;
    forall i, k | 0 <= i < |rows| && k in rows[i] && rows[i][k].Some?
      ensures Flat(rows[i][k].value) && '\n' !in rows[i][k].value && '\r' !in rows[i][k].value
    {
      var v := rows[i][k].value;
      assert v == Flatten(v) by {
        FlattenFixpoint(v);
      }
    }
  }

  /** With the default switches (column `caption`, no backup, no dropping, flatten-all) every
      row is written, in order, with its caption scrubbed and every other cell flattened. */
  lemma DefaultRun(t: Table, terms: seq<string>)
    requires WellFormed(t) && DefaultColumn in t.columns
    ensures var out := Pipeline(t, DefaultOptions, terms).value;
            out.removed == 0 && out.table.columns == t.columns && |out.table.rows| == |t.rows|
    ensures var rows: seq<Row> := Pipeline(t, DefaultOptions, terms).value.table.rows;
            forall i :: 0 <= i < |t.rows| ==>
              rows[i].Keys == t.rows[i].Keys &&
              rows[i][DefaultColumn] ==
                (var c := t.rows[i][DefaultColumn];
                 if c.Some? && IsBlank(c.value) then Some("") else CleanCaption(c, terms))
    ensures var rows: seq<Row> := Pipeline(t, DefaultOptions, terms).value.table.rows;
            forall i, k :: 0 <= i < |t.rows| && k in t.rows[i] && k != DefaultColumn ==>
              k in rows[i] && rows[i][k] == FlattenCell(t.rows[i][k])
  {
    var opts := DefaultOptions;
    var processed := Map(t.rows, row => ProcessRow(row, opts, terms));
    PipelineRowByRow(t, opts, terms);
    SomesAllPresent(processed);
    var rows: seq<Row> := Pipeline(t, opts, terms).value.table.rows;
    forall i | 0 <= i < |t.rows|
      ensures rows[i].Keys == t.rows[i].Keys
      ensures rows[i][DefaultColumn] ==
                (var c := t.rows[i][DefaultColumn];
                 if c.Some? && IsBlank(c.value) then Some("") else CleanCaption(c, terms))
    {
      assert DefaultColumn in t.rows[i];
      RowKeys(t.rows[i], opts, terms);
      RowCaption(t.rows[i], opts, terms);
    }
    forall i, k | 0 <= i < |t.rows| && k in t.rows[i] && k != DefaultColumn
      ensures k in rows[i] && rows[i][k] == FlattenCell(t.rows[i][k])
    {
      RowOtherCells(t.rows[i], opts, terms, k);
    }
  }
}

=== FILE: text.dfy ===
/** Character classes shared by the flattener, the sentence splitter and the word matcher. */
module Text {

  /** Whitespace as `\s` and `str.strip` see it, restricted to ASCII:
      space, tab, line feed, carriage return, form feed and vertical tab. */
  predicate IsWs(c: char) {
    c == ' ' || c == '\t' || c == '\n' || c == '\r' || c == '\U{000C}' || c == '\U{000B}'
  }

  /** A string that `str.strip` reduces to the empty string: empty or whitespace only. */
  predicate IsBlank(s: string) {
    forall i :: 0 <= i < |s| ==> IsWs(s[i])
  }

  /** `c` does not occur in `s`. */
  predicate Avoids(s: string, c: char) {
    forall i :: 0 <= i < |s| ==> s[i] != c
  }

  /** The sentence-ending punctuation of the splitter's look-behind `[.!?]`. */
  predicate IsTerminal(c: char) {
    c == '.' || c == '!' || c == '?'
  }

  /** The class `[A-Za-z0-9_-]` that must not touch a whole-word match on either side.
      Under the pattern's `(?i)` flag the letter ranges also take in four non-ASCII letters
      that case-fold into them: dotted capital I, dotless small i, long s and the Kelvin sign. */
  predicate IsWordChar(c: char) {
    || ('A' <= c <= 'Z') || ('a' <= c <= 'z') || ('0' <= c <= '9') || c == '_' || c == '-'
    || c == '\U{0130}' || c == '\U{0131}' || c == '\U{017F}' || c == '\U{212A}'
  }

  /** ASCII lower-casing, the model of the matcher's `(?i)` flag. */
  function Lower(c: char): (d: char)
    ensures 'A' <= c <= 'Z' ==> 'a' <= d <= 'z' && d as int - c as int == 32
    ensures !('A' <= c <= 'Z') ==> d == c
  {
    if 'A' <= c <= 'Z' then (c as int + 32) as char else c
  }

  /** Lower-cases every character of `s`. */
  function LowerStr(s: string): (r: string)
    ensures |r| == |s|
    ensures forall i :: 0 <= i < |s| ==> r[i] == Lower(s[i])
  {
    if |s| == 0 then [] else [Lower(s[0])] + LowerStr(s[1..])
  }

  /** `" ".join(ps)`: the pieces separated by single spaces. */
  function JoinSpace(ps: seq<string>): (r: string)
    ensures |ps| == 0 ==> r == ""
    ensures |ps| == 1 ==> r == ps[0]
    ensures |ps| > 0 && |ps[0]| > 0 ==> |r| > 0 && r[0] == ps[0][0]
  {
    if |ps| == 0 then ""
    else if |ps| == 1 then ps[0]
    else ps[0] + " " + JoinSpace(ps[1..])
  }

  /** Unfolds one step of `JoinSpace` on a sequence of at least two pieces. */
  lemma JoinSpaceCons(p: string, ps: seq<string>)
    requires |ps| > 0
    ensures JoinSpace([p] + ps) == p + " " + JoinSpace(ps)
  {
    assert ([p] + ps)[1..] == ps;
  }

  /** Concatenation is associative (stated once so that long proofs need not rediscover it). */
  lemma ConcatAssoc(a: string, b: string, c: string)
    ensures a + (b + c) == (a + b) + c
  {
  }

  /** Dropping a prefix gives back the rest. */
  lemma DropPrefix(a: string, b: string)
    ensures (a + b)[|a|..] == b
  {
  }

  /** A slice of a string avoiding `c` avoids it too. */
  lemma AvoidsSlice(s: string, c: char, i: nat, j: nat)
    requires i <= j <= |s| && Avoids(s, c)
    ensures Avoids(s[i..j], c)
  {
    forall k | 0 <= k < j - i ensures s[i..j][k] != c {
      assert s[i..j][k] == s[i + k];
    }
  }
}

=== FILE: word_match.dfy ===
/** `WORD_REGEX.search`: a case-insensitive, whole-word search for any of a set of terms. */
module WordMatch {
  import opened Optional
  import opened Text

  /** The alternation of the pattern that is active in the script: a placeholder digit
      string that no caption is expected to contain. */
  const ActiveTerms: seq<string> := ["648746456465465465456"]

  /** The alternation of the commented-out pattern, which the script's documentation
      describes: `lighting|illumination|light`. */
  const IntendedTerms: seq<string> := ["lighting", "illumination", "light"]

  /** Term `t` occurs at position `i` of `s`, compared case-insensitively, with no
      `[A-Za-z0-9_-]` character directly before or after it. */
  predicate MatchAt(s: string, t: string, i: int) {
    && 0 <= i && i + |t| <= |s|
    && LowerStr(s[i..i + |t|]) == LowerStr(t)
    && (i == 0 || !IsWordChar(s[i - 1]))
    && (i + |t| == |s| || !IsWordChar(s[i + |t|]))
  }

  /** `WORD_REGEX.search(s)` finds a match: some term matches at some position. */
  predicate ContainsWord(s: string, terms: seq<string>) {
    exists j, i :: 0 <= j < |terms| && 0 <= i <= |s| && MatchAt(s, terms[j], i)
  }

  /** Tries one alternative at one position, character by character, the way the regular
      expression engine does: the look-behind, the term, then the look-ahead. */
  method TryAt(s: string, t: string, i: nat) returns (found: bool)
    ensures found <==> MatchAt(s, t, i)
  {
    if i + |t| > |s| || (i > 0 && IsWordChar(s[i - 1])) {
      return false;
    }
    var k := 0;
    while k < |t|
      invariant 0 <= k <= |t|
      invariant forall m :: 0 <= m < k ==> Lower(s[i + m]) == Lower(t[m])
    {
      if Lower(s[i + k]) != Lower(t[k]) {
        assert LowerStr(s[i..i + |t|])[k] != LowerStr(t)[k];
        return false;
      }
      k := k + 1;
    }
    assert LowerStr(s[i..i + |t|]) == LowerStr(t);
    found := i + |t| == |s| || !IsWordChar(s[i + |t|]);
  }

  /** The search: the leftmost position at which some term matches, and at that position
      the first term, in the order of the alternation, that does. */
  method Search(s: string, terms: seq<string>) returns (m: Option<(nat, nat)>)
    ensures m.None? <==> !ContainsWord(s, terms)
    ensures m.Some? ==> m.value.1 < |terms| && MatchAt(s, terms[m.value.1], m.value.0)
    ensures m.Some? ==> forall i, j :: 0 <= i < m.value.0 && 0 <= j < |terms| ==> !MatchAt(s, terms[j], i)
    ensures m.Some? ==> forall j :: 0 <= j < m.value.1 ==> !MatchAt(s, terms[j], m.value.0)
  {
    var i := 0;
    while i <= |s|
      invariant 0 <= i <= |s| + 1
      invariant forall i', j :: 0 <= i' < i && 0 <= j < |terms| ==> !MatchAt(s, terms[j], i')
    {
      var j := 0;
      while j < |terms|
        invariant 0 <= j <= |terms|
        invariant forall j' :: 0 <= j' < j ==> !MatchAt(s, terms[j'], i)
      {
        var found := TryAt(s, terms[j], i);
        if found {
          return Some((i, j));
        }
        j := j + 1;
      }
      i := i + 1;
    }
    return None;
  }

  // ---------------------------------------------------------------------------
  // Lemmas

  /** A term standing alone, in any letter case, is a match. */
  lemma StandaloneMatches(a: string, u: string, b: string, terms: seq<string>, j: nat)
    requires j < |terms| && LowerStr(u) == LowerStr(terms[j])
    requires |a| == 0 || !IsWordChar(a[|a| - 1])
    requires |b| == 0 || !IsWordChar(b[0])
    ensures ContainsWord(a + u + b, terms)
  {
    var s := a + u + b;
    assert |u| == |terms[j]|;
    assert s[|a|..|a| + |u|] == u;
    assert |a| > 0 ==> s[|a| - 1] == a[|a| - 1];
    assert |b| > 0 ==> s[|a| + |u|] == b[0];
    assert MatchAt(s, terms[j], |a|);
  }

  /** An occurrence glued to a letter, digit, underscore or hyphen on either side is no match. */
  lemma EmbeddedDoesNotMatch(a: string, u: string, b: string, t: string)
    requires |u| == |t|
    requires (|a| > 0 && IsWordChar(a[|a| - 1])) || (|b| > 0 && IsWordChar(b[0]))
    ensures !MatchAt(a + u + b, t, |a|)
  {
    var s := a + u + b;
    assert |a| > 0 ==> s[|a| - 1] == a[|a| - 1];
    assert |b| > 0 ==> s[|a| + |u|] == b[0];
  }

  /** A match at `i` starts with the term's first letter, up to case. */
  lemma MatchFirstChar(s: string, t: string, i: int)
    requires MatchAt(s, t, i) && |t| > 0
    ensures Lower(s[i]) == Lower(t[0])
  {
    assert LowerStr(s[i..i + |t|])[0] == LowerStr(t)[0];
  }

  /** Lower-casing the text first does not change whether the search succeeds. */
  lemma MatchIgnoresCase(s: string, t: string, i: int)
    ensures MatchAt(s, t, i) <==> MatchAt(LowerStr(s), t, i)
  {
    var l := LowerStr(s);
    if 0 <= i && i + |t| <= |s| {
      var e := i + |t|;
      LowerSliceTwice(s, i, e);
      assert (i == 0 || !IsWordChar(l[i - 1])) <==> (i == 0 || !IsWordChar(s[i - 1])) by {
        if i > 0 {
          WordCharLower(s[i - 1]);
        }
      }
      assert (e == |l| || !IsWordChar(l[e])) <==> (e == |s| || !IsWordChar(s[e])) by {
        if e < |s| {
          WordCharLower(s[e]);
        }
      }
    }
  }

  /** Lower-casing does not move a character into or out of the word-character class. */
  lemma WordCharLower(c: char)
    ensures IsWordChar(Lower(c)) <==> IsWordChar(c)
  {
  }

  /** Lower-casing a slice of lower-cased text gives the lower-cased slice. */
  lemma LowerSliceTwice(s: string, i: nat, j: nat)
    requires i <= j <= |s|
    ensures LowerStr(LowerStr(s)[i..j]) == LowerStr(s[i..j])
  {
    LowerSlice(s, i, j);
    LowerTwice(s[i..j]);
  }

  /** Lower-casing commutes with slicing. */
  lemma LowerSlice(s: string, i: nat, j: nat)
    requires i <= j <= |s|
    ensures LowerStr(s)[i..j] == LowerStr(s[i..j])
  {
    var t := s[i..j];
    var x, y := LowerStr(s)[i..j], LowerStr(t);
    assert |x| == |y|;
    forall k | 0 <= k < |t| ensures x[k] == y[k] {
      assert x[k] == LowerStr(s)[i + k] == Lower(s[i + k]);
      assert y[k] == Lower(t[k]) && t[k] == s[i + k];
    }
  }

  /** Lower-casing twice is lower-casing once. */
  lemma LowerTwice(s: string)
    ensures LowerStr(LowerStr(s)) == LowerStr(s)
  {
    var x, y := LowerStr(LowerStr(s)), LowerStr(s);
    forall k | 0 <= k < |s| ensures x[k] == y[k] {
      assert x[k] == Lower(y[k]);
    }
  }

  /** Lower-casing the text does not change whether the search finds a term. */
  lemma ContainsWordIgnoresCase(s: string, terms: seq<string>)
    ensures ContainsWord(s, terms) <==> ContainsWord(LowerStr(s), terms)
  {
    forall j, i | 0 <= j < |terms| && 0 <= i <= |s|
      ensures MatchAt(s, terms[j], i) <==> MatchAt(LowerStr(s), terms[j], i)
    {
      MatchIgnoresCase(s, terms[j], i);
    }
  }

  /** Position `i` survives the cheap tests: the term fits, its first letter agrees up to
      case, and neither neighbour is a word character. Every match is a candidate. */
  predicate Candidate(s: string, t: string, i: int) {
    && 0 <= i && i + |t| <= |s| && |t| > 0
    && Lower(s[i]) == Lower(t[0])
    && (i == 0 || !IsWordChar(s[i - 1]))
    && (i + |t| == |s| || !IsWordChar(s[i + |t|]))
  }

  /** A text with no candidate position for any (non-empty) term contains no match. */
  lemma NoCandidateNoMatch(s: string, terms: seq<string>)
    requires forall j :: 0 <= j < |terms| ==> |terms[j]| > 0
    requires forall j, i :: 0 <= j < |terms| && 0 <= i < |s| ==> !Candidate(s, terms[j], i)
    ensures !ContainsWord(s, terms)
  {
    forall j, i | 0 <= j < |terms| && 0 <= i <= |s| && MatchAt(s, terms[j], i)
      ensures false
    {
      MatchFirstChar(s, terms[j], i);
      assert Candidate(s, terms[j], i);
    }
  }

  /** No alternative of the commented-out pattern is empty. */
  lemma IntendedTermsNonEmpty()
    ensures forall j :: 0 <= j < |IntendedTerms| ==> |IntendedTerms[j]| > 0
  {
    forall j | 0 <= j < |IntendedTerms| ensures |IntendedTerms[j]| > 0 {
      assert j == 0 || j == 1 || j == 2;
    }
  }

  /** "highlight": the term `light` inside a longer word does not match. */
  lemma HighlightDoesNotMatch()
    ensures !ContainsWord("highlight", IntendedTerms)
  {
    var s := "highlight";
    forall j, i | 0 <= j < |IntendedTerms| && 0 <= i < |s|
      ensures !Candidate(s, IntendedTerms[j], i)
    {
      assert j == 0 || j == 1 || j == 2;
    }
    IntendedTermsNonEmpty();
    NoCandidateNoMatch(s, IntendedTerms);
  }

  /** "lights": a plural glued to the term does not match. */
  lemma LightsDoesNotMatch()
    ensures !ContainsWord("lights", IntendedTerms)
  {
    var s := "lights";
    forall j, i | 0 <= j < |IntendedTerms| && 0 <= i < |s|
      ensures !Candidate(s, IntendedTerms[j], i)
    {
      assert j == 0 || j == 1 || j == 2;
    }
    IntendedTermsNonEmpty();
    NoCandidateNoMatch(s, IntendedTerms);
  }

  /** "back-lighting": the hyphen counts as part of the word, so this does not match. */
  lemma HyphenatedDoesNotMatch()
    ensures !ContainsWord("back-lighting", IntendedTerms)
  {
    var s := "back-lighting";
    forall j, i | 0 <= j < |IntendedTerms| && 0 <= i < |s|
      ensures !Candidate(s, IntendedTerms[j], i)
    {
      assert j == 0 || j == 1 || j == 2;
    }
    IntendedTermsNonEmpty();
    NoCandidateNoMatch(s, IntendedTerms);
  }

  /** "Soft LIGHT.": the term in capitals, followed by punctuation, matches. */
  lemma CapitalisedTermMatches()
    ensures ContainsWord("Soft LIGHT.", IntendedTerms)
  {
    var s, t := "Soft LIGHT.", IntendedTerms[2];
    var w := s[5..10];
    assert Lower(w[0]) == t[0] && Lower(w[1]) == t[1] && Lower(w[2]) == t[2];
    assert Lower(w[3]) == t[3] && Lower(w[4]) == t[4];
    assert forall k :: 0 <= k < |t| ==> Lower(t[k]) == t[k];
    assert LowerStr(w) == LowerStr(t);
    assert MatchAt(s, t, 5);
  }

  /** The Kelvin sign folds to `k` under `(?i)`, so it counts as a word character and
      `light` glued to it is no match. */
  lemma KelvinSignBlocksMatch()
    ensures !MatchAt("\U{212A}light", "light", 1)
    ensures MatchAt(" light", "light", 1)
  {
    var s := " light";
    assert s[1..6] == "light";
  }

  /** Under the active placeholder pattern, text without the digit 6 never matches. */
  lemma ActiveNeedsDigit(s: string)
    requires Avoids(s, '6')
    ensures !ContainsWord(s, ActiveTerms)
  {
    var t := ActiveTerms[0];
    assert |ActiveTerms| == 1 && |t| > 0 && Lower(t[0]) == '6';
    forall i | 0 <= i < |s| ensures !Candidate(s, t, i) {
      assert Lower(s[i]) != '6';
    }
    NoCandidateNoMatch(s, ActiveTerms);
  }
}
